=== FILE: README.md ===
# Dashboard_Admin core, modelled in Dafny

Dashboard_Admin is an administration console for a retrieval-augmented
question-answering service. It has two halves:

- An Angular front end. Users create AI models, upload PDF documents to them,
  follow training and embedding, browse documents and chat.
- A Flask back end. It keeps the models in a ChromaDB collection, splits
  documents into chunks for embedding and fronts a few external services.

This project models the parts of both halves that hold real logic. Each piece
is a deterministic, sequential function over immutable data. Timers, HTTP
answers, the clock and random ids become explicit events or parameters.

| module | file | what it covers |
|---|---|---|
| `Base` | base.dfy | `Option`, `Outcome` (returned value or raised error), order-preserving `Filter` and subsequences |
| `Text` | text.dfy | ASCII lower-casing, substring search, Python `str.split()` / `' '.join`, decimal printing |
| `Types` | types.dfy | `ModelStatus`, `EmbeddingStatus`, `AIModel` |
| `Toasts` | toasts.dfy | the notification queue and its id counter |
| `Loading` | loading.dfy | the single global loading indicator |
| `Socket` | socket.dfy | the push channel's socket as a none/open/closed machine |
| `FileSelect` | file_select.dfy | the PDF-only file picker both model pages share |
| `ModelList` | model_list.dfy | push-update merge, search/status filter, page guard |
| `ModelDetail` | model_detail.dfy | embedding polling, `loadModel` defaults, training log, upload and re-embed |
| `ModelCreation` | model_creation.dfy | form validation and the create-then-upload pipeline |
| `Chat` | chat.dfy | `sendMessage` split at its `await` |
| `DocumentList` | document_list.dfy | category filter and load flags |
| `Chunker` | chunker.dfy | the greedy word packer `split_text_into_chunks` |
| `Json` | json.dfy | `json.dumps` / `json.loads` of a model's file list |
| `ModelStore` | store.dfy | model CRUD and `add_document` over an abstract collection |
| `Routes` | routes.dfy | `allowed_file` and the ordered request checks of four routes |

Four behaviours of the code shape the model:

- Loading is one global `{isLoading, message}` value, with no keys and no
  counting of nested `show` calls.
- The websocket service never reconnects. The retry pipeline it builds is
  discarded.
- The model-list merge applies status and training logs only. The update's
  progress is never copied.
- The model-creation page addresses the upload by the model's name, and it
  navigates to the `id` of the upload's reply rather than the created
  model's.

## Model

| member | source | states |
|---|---|---|
| Toasts.Show | frontend/src/app/services/toast.service.ts:26-40 | one toast is appended after the unchanged earlier ones; it carries the current counter value, which then advances by one; a missing or zero duration becomes 3000 |
| Toasts.Remove | frontend/src/app/services/toast.service.ts:42-45 | the result keeps, in order, exactly the toasts whose id differs; the counter is untouched |
| Toasts.ClearAll | frontend/src/app/services/toast.service.ts:47-50 | the list is emptied and the counter is not reset |
| Toasts.Success | frontend/src/app/services/toast.service.ts:52-54 | exactly one success toast with the message and the next id is added at the end |
| Toasts.Error | frontend/src/app/services/toast.service.ts:56-58 | exactly one error toast with the message and the next id is added at the end |
| Toasts.Info | frontend/src/app/services/toast.service.ts:60-62 | exactly one info toast with the message and the next id is added at the end |
| Toasts.Warning | frontend/src/app/services/toast.service.ts:64-66 | exactly one warning toast with the message and the next id is added at the end |
| Toasts.ShowKeepsValid | frontend/src/app/services/toast.service.ts:26-40 | adding a toast keeps ids strictly increasing along the list and below the counter; the new id is larger than every earlier one |
| Toasts.RemoveKeepsValid | frontend/src/app/services/toast.service.ts:42-45 | removing toasts keeps the list sorted by strictly increasing id |
| Toasts.RemoveUnknownId | frontend/src/app/services/toast.service.ts:42-45 | removing an id that no toast carries leaves the queue unchanged |
| Toasts.ExpireAfterDismiss | frontend/src/app/services/toast.service.ts:37-45 | the timer's removal of a toast the user already dismissed changes nothing |
| Toasts.RunKeepsValid | frontend/src/app/services/toast.service.ts:20-50 | over any history of adds, dismissals, expiries and clears, ids stay sorted and unique, and the counter grows by exactly the number of adds |
| Toasts.InitialRun | frontend/src/app/services/toast.service.ts:20-33 | from a new service, ids start at 1 and the counter is always one more than the number of toasts ever shown |
| Loading.Show | frontend/src/app/services/loading.service.ts:16-18 | the indicator is on with the new message, whatever it showed before |
| Loading.Hide | frontend/src/app/services/loading.service.ts:20-22 | the indicator is off with no message, whatever came before |
| Loading.SetMessage | frontend/src/app/services/loading.service.ts:24-29 | never changes `isLoading`; replaces the message while loading and does nothing otherwise |
| Loading.RunKeepsConsistent | frontend/src/app/services/loading.service.ts:13-29 | starting from a state without a message while hidden, no sequence of operations produces a hidden indicator that carries a message |
| Loading.HiddenStaysHidden | frontend/src/app/services/loading.service.ts:13-29 | from the initial state, `hide` and `setMessage` alone never show the indicator or give it a message |
| Loading.OneHideClears | frontend/src/app/services/loading.service.ts:16-22 | shows are not counted: a single `hide` after any history returns to the initial state until the next `show` |
| Socket.Connect | frontend/src/app/services/websocket.service.ts:23-52 | an open socket is reused; with none or a closed one, a socket with a new generation is opened |
| Socket.SendMessage | frontend/src/app/services/websocket.service.ts:54-58 | a message is recorded against the open socket, and is dropped silently when no socket is open |
| Socket.Disconnect | frontend/src/app/services/websocket.service.ts:60-65 | afterwards there is no socket; the sockets created, the messages sent and the close signals are unchanged |
| Socket.PeerClose | frontend/src/app/services/websocket.service.ts:32-37 | a close marks the open socket closed and emits one reconnection signal; it never opens anything |
| Socket.StepKeepsValid | frontend/src/app/services/websocket.service.ts:23-65 | every socket in use and every sent message refers to a generation already created |
| Socket.DisconnectIdempotent | frontend/src/app/services/websocket.service.ts:60-65 | disconnecting twice is the same as disconnecting once |
| Socket.ConnectAfterDisconnectIsFresh | frontend/src/app/services/websocket.service.ts:23-65 | connecting after a disconnect opens a socket whose generation no earlier socket or message used |
| Socket.NoReconnectWithoutConnect | frontend/src/app/services/websocket.service.ts:32-48 | without an explicit `connect`, a service with no open socket never gets one, creates none and sends nothing, whatever closes occur |
| FileSelect.Select | frontend/src/app/component/model-creation/model-creation.component.ts:30-43 | the selection becomes exactly the PDF-typed files in their order and count; a warning naming the skipped count is added if and only if some file was not a PDF; no file list changes nothing |
| ModelList.FindIndex | frontend/src/app/component/model-list/model-list.component.ts:57 | the result is the first position holding the id, and is absent exactly when no entry has it |
| ModelList.ChangeNotice | frontend/src/app/component/model-list/model-list.component.ts:67-76 | a toast is asked for if and only if the status really changes into Ready (success) or Error (failure), with the model's name in the text |
| ModelList.UpdateModel | frontend/src/app/component/model-list/model-list.component.ts:56-78 | only the first entry with the update's id changes: it takes the new status, takes the logs only when the update has some, and keeps every other field; length, ids and all other entries are unchanged; an absent id changes nothing and emits nothing |
| ModelList.UpdateModelIdempotent | frontend/src/app/component/model-list/model-list.component.ts:56-78 | applying the same update again leaves the array as it is and asks for no toast |
| ModelList.OnUpdate | frontend/src/app/component/model-list/model-list.component.ts:54-82 | a frame rewrites `models` and then `filteredModels`, each by its own merge, and nothing else in the view; the earlier toasts stay in place and one toast is appended per array whose merge announces a change, carrying that announcement's kind and text, the `models` one first; a model held in neither array changes nothing |
| ModelList.OnUpdateIdempotent | frontend/src/app/component/model-list/model-list.component.ts:54-82 | a frame delivered twice gives the same arrays and toasts as delivering it once |
| ModelList.OnUpdateAgreesAcrossArrays | frontend/src/app/component/model-list/model-list.component.ts:54-82 | after a frame, both arrays give the model the update's status and, when the frame has logs, the same logs |
| ModelList.OnUpdateToastPerArray | frontend/src/app/component/model-list/model-list.component.ts:67-81 | a model held in both arrays that becomes Ready gives two success toasts, one per array; becoming Pending or Training gives none |
| ModelList.ApplyFilters | frontend/src/app/component/model-list/model-list.component.ts:132-152 | the result is an order-preserving subsequence of the models holding exactly the models that match the term (name or description, any ASCII case) and the status filter; with no term and 'all' it is the whole list |
| ModelList.SearchedIsFilter | frontend/src/app/component/model-list/model-list.component.ts:136-142 | the search pass, which is skipped for an empty term, equals one filter by "the term is empty or matches" |
| ModelList.StatusStage | frontend/src/app/component/model-list/model-list.component.ts:136-149 | the search pass followed by the status pass equals one filter by the combined condition |
| ModelList.ApplyFiltersIsOneFilter | frontend/src/app/component/model-list/model-list.component.ts:132-152 | the two passes equal a single filter by the survival condition, so each surviving model appears as often as in the input |
| ModelList.Emit | frontend/src/app/component/model-list/model-list.component.ts:67-76 | no announcement adds no toast; an announcement appends one toast with its kind and text and the next id after the unchanged earlier toasts |
| ModelList.RefreshFilter | frontend/src/app/component/model-list/model-list.component.ts:124-130 | re-filtering changes only the shown list (search term, status filter, page, total, toasts and models untouched); the shown list is the models that survive both filters, in their order and multiplicity, so it holds exactly the surviving models |
| ModelList.OnPageChange | frontend/src/app/component/model-list/model-list.component.ts:154-159 | a page is accepted, and a reload started, if and only if it exists and starts inside the total; otherwise nothing changes; with no models every page is refused |
| ModelDetail.Init | frontend/src/app/component/model-detail/model-detail.component.ts:32-42 | with a route id polling starts; without one the page shows "Model ID not found" as error and toast |
| ModelDetail.Tick | frontend/src/app/component/model-detail/model-detail.component.ts:55-56 | a status request is issued if and only if polling runs and the loaded model's embedding is Processing |
| ModelDetail.PollResponse | frontend/src/app/component/model-detail/model-detail.component.ts:57-76 | the response overwrites embedding status and progress and nothing else; Completed or Error adds exactly one toast and stops polling; any other status adds none and polling goes on |
| ModelDetail.ToModel | frontend/src/app/component/model-detail/model-detail.component.ts:106-117 | a missing status becomes Pending, missing files and logs become empty, and every other field is copied |
| ModelDetail.LoadModel | frontend/src/app/component/model-detail/model-detail.component.ts:94-137 | success replaces the model with the mapped response; failure keeps it and reports an error; only a 404 goes back to the list; the indicator ends hidden and polling is untouched |
| ModelDetail.TriggerTraining | frontend/src/app/component/model-detail/model-detail.component.ts:179-214 | a truthy answer sets Training, appends one line and adds a success toast; a falsy answer changes no model field; a failure sets Error, appends two lines, sets the error and adds an error toast; earlier lines stay in front; no model field other than the status and the logs ever changes |
| ModelDetail.UploadFiles | frontend/src/app/component/model-detail/model-detail.component.ts:152-177 | the upload is issued if and only if a model is loaded and files are selected; success clears the selection and adds the success toast; failure keeps the selection, sets the error and adds one error toast with the same text; polling is untouched |
| ModelDetail.ReembedModel | frontend/src/app/component/model-detail/model-detail.component.ts:235-251 | without a model nothing happens; otherwise the indicator ends hidden; success adds the success toast and clears the error, as the un-awaited reload does before the `finally`; failure sets the error and adds one error toast with the same text; polling, the model and the selection are untouched |
| ModelDetail.SelectFiles | frontend/src/app/component/model-detail/model-detail.component.ts:139-150 | the file picker changes only the selection and the toasts, as the shared PDF filter says; no file list changes nothing |
| ModelDetail.StoppedPollingStaysStopped | frontend/src/app/component/model-detail/model-detail.component.ts:53-79 | once polling has stopped, no event (reloads, uploads, re-embedding included) restarts it or issues a status request |
| ModelDetail.TerminalResponseEndsPolling | frontend/src/app/component/model-detail/model-detail.component.ts:63-70 | after a Completed or Error response, no later event issues another status request |
| ModelDetail.NonTerminalKeepsPolling | frontend/src/app/component/model-detail/model-detail.component.ts:56-77 | a failed status request or a non-terminal response leaves polling running and adds no toast |
| ModelCreation.SelectFiles | frontend/src/app/component/model-creation/model-creation.component.ts:30-43 | the file picker changes only the selection and the toasts, as the shared PDF filter says |
| ModelCreation.ValidateForm | frontend/src/app/component/model-creation/model-creation.component.ts:88-104 | the form passes if and only if name, description and selection are all non-empty; the field check comes first; a failure sets the error and adds one error toast; a pass changes nothing |
| ModelCreation.ErrorText | frontend/src/app/component/model-creation/model-creation.component.ts:66 | a non-empty API error text wins, then a non-empty exception message, and with neither the text is "Error creating model"; the text is never empty |
| ModelCreation.CreateModel | frontend/src/app/component/model-creation/model-creation.component.ts:45-87 | an invalid form sends no request and leaves the indicator alone; otherwise the create request goes first, the upload keyed by the model name follows when the create succeeds, the indicator ends hidden, and success navigates to the upload reply's id |
| ModelCreation.OneToastPerSubmission | frontend/src/app/component/model-creation/model-creation.component.ts:45-104 | every submission, valid or not, adds exactly one toast |
| ModelCreation.ValidFormAlwaysUploads | frontend/src/app/component/model-creation/model-creation.component.ts:57-60 | a valid form whose creation succeeds always sends the upload |
| Chat.Send | frontend/src/app/component/chat/chat.component.ts:25-37 | blank input (JavaScript white space only) changes nothing and sends nothing; otherwise the untrimmed text is appended as a user message, the input is cleared, loading starts, and the query carries the category unless it is "Tous" |
| Chat.ReplyText | frontend/src/app/component/chat/chat.component.ts:41-48 | a positive count gives the "found N" text, zero gives the "not found" text, a failure gives the apology |
| Chat.Complete | frontend/src/app/component/chat/chat.component.ts:39-51 | exactly one bot message is appended and loading ends, whatever the outcome |
| Chat.SendThenCompleteAddsTwo | frontend/src/app/component/chat/chat.component.ts:25-52 | a non-blank send grows the conversation by the user message followed by one bot reply |
| Chat.ReplyTellsOutcome | frontend/src/app/component/chat/chat.component.ts:41-48 | equal reply texts mean the same kind of outcome, so the three replies are distinguishable |
| DocumentList.FilterDocuments | frontend/src/app/component/document-list/document-list.component.ts:38-46 | "Tous" gives all documents in order; any other category gives exactly that category's documents, in order and with their multiplicities |
| DocumentList.FilterDocumentsIdempotent | frontend/src/app/component/document-list/document-list.component.ts:38-46 | filtering a filtered list again with the same category changes nothing |
| DocumentList.SelectCategory | frontend/src/app/component/document-list/document-list.component.ts:48-50 | changing the category recomputes the shown list and never modifies the documents |
| DocumentList.LoadDocuments | frontend/src/app/component/document-list/document-list.component.ts:24-36 | loading always ends false; success replaces and re-filters the documents; failure keeps them and sets the message or the default text |
| DocumentList.ConsistentPreserved | frontend/src/app/component/document-list/document-list.component.ts:11-50 | the shown list is always the stored list filtered by the selected category: true of a new page, and kept by a category change and by any load |
| Chunker.SplitTextIntoChunks | admin-rag-project/utils/embedding_generator.py:12-29 | the budget defaults to 512 characters; no words give no chunks; each chunk is its own words joined by single spaces; the chunks' words are the text's words in order; each chunk of two or more words fits the budget; each chunk was closed only when the next word would overflow it; only the first chunk can be empty, exactly when the first word alone exceeds the budget; the last chunk is never empty |
| Chunker.ScanWord | admin-rag-project/utils/embedding_generator.py:18-24 | one turn of the loop: a word that would overflow the current chunk closes it and starts a new chunk, otherwise it joins the current chunk; either way the packing invariant holds for one more word (the chunks and the open chunk spell the words read so far, closed chunks fit, and only the first may be empty) |
| Chunker.LongWordStandsAlone | admin-rag-project/utils/embedding_generator.py:19-24 | a word longer than the budget is never split: the chunk holding it holds nothing else |
| Chunker.JoinLength | admin-rag-project/utils/embedding_generator.py:19-24 | a chunk built from a group of words is one character shorter than the group's size, so a multi-word chunk is shorter than the budget |
| Text.WordsOfJoin | admin-rag-project/utils/embedding_generator.py:13-20 | splitting the space-joined words of a group gives the group back |
| Json.Dumps | admin-rag-project/models/database.py:115-116 | the JSON text of a value has at least two characters, and opens with `"` exactly for a string and with `[` exactly for a list |
| Json.Loads | admin-rag-project/models/database.py:149 | a text is read as a value only when it is exactly the text written for that value |
| Json.LoadsDumps | admin-rag-project/models/database.py:115-116 | reading back the JSON text written for a file list gives the same list |
| Json.DumpsInjective | admin-rag-project/models/database.py:115-116 | two values get the same JSON text if and only if they are equal |
| Json.LoadsIff | admin-rag-project/models/database.py:115-149 | reading a text gives a value if and only if the text is the one written for that value |
| ModelStore.Encode | admin-rag-project/models/database.py:114-116 | the stored copy has the same fields, with `files` replaced by text that reads back as the list |
| ModelStore.Decode | admin-rag-project/models/database.py:149 | a successful read keeps every field except `files` and has the same keys |
| ModelStore.DecodeEncode | admin-rag-project/models/database.py:115-116 | a record written to the store is read back unchanged |
| ModelStore.CreateModel | admin-rag-project/models/database.py:99-124 | a model is added with the given id, name and description, status Pending, no files and exactly six fields; earlier models are kept |
| ModelStore.CreateThenGet | admin-rag-project/models/database.py:99-153 | a created model reads back exactly as `create_model` returned it |
| ModelStore.ReadAll | admin-rag-project/models/database.py:131-135 | the listing has one decoded record per stored model, in order |
| ModelStore.SliceBound | admin-rag-project/models/database.py:138 | a non-negative slice bound is clamped to the length |
| ModelStore.SliceFrom | admin-rag-project/models/database.py:137-138 | for non-negative skip and limit, the slice is exactly the elements from `skip` up to `skip + limit`, both bounds cut at the length; so it has at most `limit` elements, is empty past the end and is full inside it |
| ModelStore.GetModels | admin-rag-project/models/database.py:126-140 | an unreadable model makes the call raise; otherwise the total counts all models before slicing, and for non-negative skip and limit the page is exactly the decoded models from `skip` up to `skip + limit`, cut at the total |
| ModelStore.GetModelById | admin-rag-project/models/database.py:142-153 | the result is absent for an unknown id and for an unreadable record, and otherwise is the decoded record |
| ModelStore.UpdateModel | admin-rag-project/models/database.py:171-190 | an unreadable model gives no result and changes nothing; otherwise the result has the union of the keys, update keys win, other keys are kept, and only that model's record changes |
| ModelStore.UpdateThenGet | admin-rag-project/models/database.py:171-190 | the record `update_model` returns is what a later `get_model_by_id` reads |
| ModelStore.PathJoin | admin-rag-project/models/database.py:206 | the directory and name are joined with '/', unless the name is absolute |
| ModelStore.FileFor | admin-rag-project/models/database.py:203-207 | a new file record keeps the drawn id and the file name, and its path is `uploads/<id>_<name>` |
| ModelStore.FilesFor | admin-rag-project/models/database.py:200-209 | one record per upload, in upload order |
| ModelStore.AddModelFiles | admin-rag-project/models/database.py:192-212 | an unknown model gives `None`; otherwise the new records are appended after the existing files and the update's result is returned; a non-list `files` field raises |
| ModelStore.AddFilesAppends | admin-rag-project/models/database.py:192-212 | after adding files, the model reads back with the old files followed by one record per upload |
| ModelStore.DeleteModelFile | admin-rag-project/models/database.py:214-230 | an unknown model or file id gives False and changes nothing; otherwise every file with that id is removed, the rest kept in order, and True returned |
| ModelStore.DeleteFileRemovesExactly | admin-rag-project/models/database.py:214-230 | after a successful delete the model reads back with no file carrying that id and the other files in order |
| ModelStore.DeleteModel | admin-rag-project/models/database.py:155-169 | True, and the model removed from the rows and the listing, if and only if the model is readable and its `files` field is not a non-empty text (looping over such a text raises and the `except` answers False); otherwise nothing changes; other models are untouched |
| ModelStore.DeleteThenGet | admin-rag-project/models/database.py:142-169 | after a successful delete the model reads as absent and is gone from the listing, and every other model reads as before |
| ModelStore.AddDocument | admin-rag-project/models/database.py:26-39 | an unknown category raises "Catégorie inconnue"; otherwise the document is appended to its category under `metadata["filename"]`, which is returned, and the other categories are untouched |
| ModelStore.AddDocumentThenFind | admin-rag-project/models/database.py:26-39 | the id `add_document` answers finds the stored document, with its text and metadata, in its category |
| Routes.LastDot | admin-rag-project/app.py:24 | the result is the position of a '.' with no '.' after it, or absent when there is no '.' |
| Routes.AllowedFile | admin-rag-project/app.py:23-24 | a name is allowed if and only if it has a '.' and the text after the last '.', in any case, is pdf, docx, txt, xlsx or xml |
| Routes.AllowedFileExamples | admin-rag-project/app.py:23-24 | "A.PDF" and "x.exe.pdf" are accepted; "x.pdf.exe", "name." and "pdf" are refused |
| Routes.CreateModel | admin-rag-project/app.py:33-46 | a null body is a 500; a missing or empty name is a 400; otherwise the name and the description (default empty) are passed on |
| Routes.UploadFiles | admin-rag-project/app.py:50-71 | checks in order: model name, presence of the files part, at least one acceptable name; the acceptable names are passed on in their order |
| Routes.UpdateModelFiles | admin-rag-project/app.py:102-118 | only a missing or empty files part is refused; every file is passed on, whatever its name |
| Routes.UpdateFilesSkipsExtensionCheck | admin-rag-project/app.py:102-112 | a file the upload route refuses for its extension is accepted by the file-update route |
| Routes.AskQuestion | admin-rag-project/app.py:159-172 | a null body is a 500; otherwise the request passes if and only if both the question and the model name are non-empty |

## Left out

- The external service client (`external_service.py`) only forwards HTTP requests, and its commented-out services are dead code.
- The upload route's call to `ModelService.upload_files`, which does not exist, is left out. After validation that route answers 500; only its checks are modelled.
- `api.service.ts` is one HTTP call per method and is left out. HTTP answers are inputs of the operations.
- The delete flows of the model list, model detail and document list pages are left out. They await an observable that is never subscribed, so the request is never sent.
- Real scheduling is left out: `interval`, `setTimeout`, `forkJoin`, `switchMap` and the rxjs socket internals. Ticks, expiries, responses and closes are explicit events.
- `loadModels` of the model list is left out. It depends on `forkJoin` over per-model requests; its result only feeds `ApplyFilters`.
- ChromaDB, sentence-transformers, PyPDF2, the file system, uuid and datetime are left out. Ids, file ids and timestamps are parameters, and the collections are maps.
- `query_collection`, `get_documents` and `delete_document` of the store are left out. They are scoring and listing over ChromaDB results.
- ModelStore.AddDocument: the embedding vector is not stored, and adding an id the collection already holds is not rejected. ChromaDB's duplicate-id handling is not part of this model.
- ModelStore.DeleteModel: the removal of the model's files from disk is not modelled.
- ModelStore.CreateModel: the fresh id from uuid4 is assumed unused, as a precondition.
- ModelStore.CreateModel: the `str(model)` document stored next to the metadata is not modelled, since nothing reads it.
- Json.Loads: accepts only the exact layout `json.dumps` writes with its default separators. Python's reader also accepts other white space and escapes, but the store never writes them.
- Json.LoadsDumps: only `"` and `\` are escaped. Python's `\uXXXX` and control-character escapes, and whitespace tolerance in `json.loads`, are not modelled; the round trip does not depend on them.
- Text.Lower: case mapping, and the white space used by `str.split()`, are ASCII only.
- Routes.CreateModel: request bodies are modelled as maps of text fields only. A non-text `name` or `question` is not modelled.
- Routes.CreateModel: the 500 branch is modelled only for a `null` body. Other exceptions come from the services behind the routes, which are not part of this model.
- Types.AIModel: `dateCreated` and `vectorStore` are display-only and are not carried.
- ModelList.OnUpdate: the socket's error handler (one "Lost connection to server" toast) is not modelled.
- DocumentList.LoadDocuments: a successful request that yields `undefined` is not modelled.
- Presentation and wiring are left out: spinner, toast component, status badge helpers, app component, routing module, app module, and the file-upload page with its hard-coded model id.

=== FILE: base.dfy ===
/** Small generic vocabulary shared by every component of the model: an
    optional value, the outcome of a Python call that may raise, and the
    order-preserving filter that `Array.prototype.filter` and Python list
    comprehensions with an `if` both compute. */
module Base {

  /** `undefined`/`null` in TypeScript, `None` in Python. */
  datatype Option<T> = None | Some(value: T)

  /** A Python call either returns a value or raises; `message` is `str(e)`. */
  datatype Outcome<T> = Returned(value: T) | Raised(message: string)

  /** `r` can be obtained from `s` by deleting elements, keeping the order. */
  ghost predicate Subseq<T>(r: seq<T>, s: seq<T>)
    decreases |s|
  {
    if |r| == 0 then true
    else if |s| == 0 then false
    else (r[0] == s[0] && Subseq(r[1..], s[1..])) || Subseq(r, s[1..])
  }

  /** Keeps the elements of `s` that satisfy `p`, in their original order.
      The contract determines the result completely: an order-preserving
      selection of `s` that holds every element satisfying `p` as often as
      `s` does and no element that fails it. */
  function Filter<T(!new)>(s: seq<T>, p: T -> bool): (r: seq<T>)
    ensures |r| <= |s|
    ensures Subseq(r, s)
    ensures forall x :: multiset(r)[x] == if p(x) then multiset(s)[x] else 0
    ensures forall x :: x in r <==> x in s && p(x)
    decreases |s|
  {
    if |s| == 0 then []
    else
      var rest := Filter(s[1..], p);
      assert s == [s[0]] + s[1..];
      assert multiset(s) == multiset{s[0]} + multiset(s[1..]);
      if p(s[0]) then
        var r := [s[0]] + rest;
        assert r[1..] == rest;
        assert multiset(r) == multiset{s[0]} + multiset(rest);
        r
      else rest
  }

  /** Filtering with a predicate every element satisfies is the identity, and
      the result is as long as the input only in that case. */
  lemma {:induction false} FilterKeepsAllIff<T(!new)>(s: seq<T>, p: T -> bool)
    ensures |Filter(s, p)| == |s| <==> forall i :: 0 <= i < |s| ==> p(s[i])
    ensures (forall i :: 0 <= i < |s| ==> p(s[i])) ==> Filter(s, p) == s
    decreases |s|
  {
    if |s| > 0 {
      FilterKeepsAllIff(s[1..], p);
      if !p(s[0]) {
        assert |Filter(s, p)| < |s|;
      }
      assert forall i :: 1 <= i < |s| ==> s[i] == s[1..][i - 1];
    }
  }

  /** The conjunction of two predicates. */
  function Both<T>(p: T -> bool, q: T -> bool): T -> bool
  {
    x => p(x) && q(x)
  }

  /** Two successive filters are one filter by the conjunction. */
  lemma {:induction false} FilterFilter<T(!new)>(s: seq<T>, p: T -> bool, q: T -> bool)
    ensures Filter(Filter(s, p), q) == Filter(s, Both(p, q))
    decreases |s|
  {
    if |s| > 0 {
      FilterFilter(s[1..], p, q);
      if p(s[0]) {
        assert Filter(s, p) == [s[0]] + Filter(s[1..], p);
        assert Filter(s, p)[1..] == Filter(s[1..], p);
      }
    }
  }

  /** Filtering depends only on which elements the predicate accepts. */
  lemma {:induction false} FilterSamePredicate<T(!new)>(s: seq<T>, p: T -> bool, q: T -> bool)
    requires forall x :: p(x) == q(x)
    ensures Filter(s, p) == Filter(s, q)
    decreases |s|
  {
    if |s| > 0 {
      FilterSamePredicate(s[1..], p, q);
    }
  }

  /** Every element of a subsequence comes from the sequence. */
  lemma {:induction false} SubseqMembers<T>(r: seq<T>, s: seq<T>)
    requires Subseq(r, s)
    ensures forall x :: x in r ==> x in s
    decreases |s|
  {
    if |r| > 0 {
      if r[0] == s[0] && Subseq(r[1..], s[1..]) {
        SubseqMembers(r[1..], s[1..]);
        assert forall x :: x in r ==> x == r[0] || x in r[1..];
      } else {
        SubseqMembers(r, s[1..]);
      }
    }
  }

  lemma {:induction false} SubseqReflexive<T>(s: seq<T>)
    ensures Subseq(s, s)
    decreases |s|
  {
    if |s| > 0 {
      SubseqReflexive(s[1..]);
    }
  }

  /** A subsequence of a subsequence is a subsequence. */
  lemma {:induction false} SubseqTransitive<T>(a: seq<T>, b: seq<T>, c: seq<T>)
    requires Subseq(a, b) && Subseq(b, c)
    ensures Subseq(a, c)
    decreases |c|
  {
    if |a| > 0 && |c| > 0 {
      if b[0] == c[0] && Subseq(b[1..], c[1..]) {
        if a[0] == b[0] && Subseq(a[1..], b[1..]) {
          SubseqTransitive(a[1..], b[1..], c[1..]);
        } else {
          SubseqTransitive(a, b[1..], c[1..]);
        }
      } else {
        SubseqTransitive(a, b, c[1..]);
      }
    }
  }

  /** `s` is strictly increasing under `key`. */
  ghost predicate StrictlyIncreasing<T>(s: seq<T>, key: T -> int)
  {
    forall i, j :: 0 <= i < j < |s| ==> key(s[i]) < key(s[j])
  }

  /** Deleting elements keeps a strictly increasing sequence strictly increasing. */
  lemma {:induction false} SubseqKeepsIncreasing<T>(r: seq<T>, s: seq<T>, key: T -> int)
    requires Subseq(r, s)
    requires StrictlyIncreasing(s, key)
    ensures StrictlyIncreasing(r, key)
    decreases |s|
  {
    if |r| > 0 {
      assert StrictlyIncreasing(s[1..], key) by {
        forall i, j | 0 <= i < j < |s[1..]| ensures key(s[1..][i]) < key(s[1..][j]) {
          assert s[1..][i] == s[i + 1] && s[1..][j] == s[j + 1];
        }
      }
      if r[0] == s[0] && Subseq(r[1..], s[1..]) {
        SubseqKeepsIncreasing(r[1..], s[1..], key);
        SubseqMembers(r[1..], s[1..]);
        forall j | 0 < j < |r| ensures key(r[0]) < key(r[j]) {
          assert r[j] == r[1..][j - 1];
          assert r[j] in s[1..];
          var k :| 0 <= k < |s[1..]| && s[1..][k] == r[j];
          assert s[k + 1] == r[j];
        }
        forall i, j | 0 <= i < j < |r| ensures key(r[i]) < key(r[j]) {
          if i > 0 {
            assert r[i] == r[1..][i - 1] && r[j] == r[1..][j - 1];
          }
        }
      } else {
        SubseqKeepsIncreasing(r, s[1..], key);
      }
    }
  }

  /** No element occurs twice. */
  ghost predicate Distinct<T>(s: seq<T>)
  {
    forall i, j :: 0 <= i < j < |s| ==> s[i] != s[j]
  }

  /** Filtering a list without repetitions yields one without repetitions. */
  lemma {:induction false} FilterKeepsDistinct<T(!new)>(s: seq<T>, p: T -> bool)
    requires Distinct(s)
    ensures Distinct(Filter(s, p))
    decreases |s|
  {
    if |s| > 0 {
      var rest := Filter(s[1..], p);
      assert Distinct(s[1..]) by {
        forall i, j | 0 <= i < j < |s[1..]| ensures s[1..][i] != s[1..][j] {
          assert s[1..][i] == s[i + 1] && s[1..][j] == s[j + 1];
        }
      }
      FilterKeepsDistinct(s[1..], p);
      assert s[0] !in s[1..] by {
        forall k | 0 <= k < |s[1..]| ensures s[1..][k] != s[0] {
          assert s[1..][k] == s[k + 1];
        }
      }
      if p(s[0]) {
        var r := [s[0]] + rest;
        assert Filter(s, p) == r;
        forall i, j | 0 <= i < j < |r| ensures r[i] != r[j] {
          assert r[j] == rest[j - 1];
          if i > 0 {
            assert r[i] == rest[i - 1];
          } else {
            assert r[j] in rest;
          }
        }
      }
    }
  }
}

=== FILE: chat.dfy ===
/** The chat page (`chat.component.ts`): a conversation that starts with a
    greeting, and `sendMessage` split at its `await` into the synchronous
    part (the user's message is recorded and the query issued) and the
    completion (one bot reply, loading cleared). */
module Chat {
  import opened Base
  import opened Text

  datatype Sender = User | Bot

  datatype Message = Message(sender: Sender, text: string)

  datatype State = State(messages: seq<Message>, userInput: string, selectedCategory: string, isLoading: bool, resultCount: nat)

  const Greeting := "Bonjour! Posez-moi des questions sur vos documents."
  const AllCategories := "Tous"
  const NothingFound := "Je n'ai pas trouvé de résultats pertinents."
  const Apology := "Désolé, une erreur s'est produite."

  /** The component as constructed. */
  const Initial := State([Message(Bot, Greeting)], "", AllCategories, false, 0)

  /** The characters `String.prototype.trim` removes: ECMAScript white
      space and line terminators. */
  predicate IsJsSpace(c: char)
  {
    || ('\t' <= c <= '\r')
    || c == ' ' || c == '\U{A0}' || c == '\U{1680}' || ('\U{2000}' <= c <= '\U{200A}')
    || c == '\U{2028}' || c == '\U{2029}' || c == '\U{202F}' || c == '\U{205F}'
    || c == '\U{3000}' || c == '\U{FEFF}'
  }

  /** `!s.trim()`: nothing but white space is left. */
  predicate Blank(s: string)
  {
    forall i :: 0 <= i < |s| ==> IsJsSpace(s[i])
  }

  /** The query sent: the untrimmed text and, unless "Tous" is selected, the
      category. */
  datatype Query = Query(text: string, category: Option<string>)

  /** `sendMessage()` up to its `await`. */
  function Send(c: State): (r: (State, Option<Query>))
    ensures Blank(c.userInput) ==> r == (c, None)
    ensures !Blank(c.userInput) ==>
      && r.0.messages == c.messages + [Message(User, c.userInput)]
      && r.0.userInput == ""
      && r.0.isLoading
      && r.0.selectedCategory == c.selectedCategory
      && r.1 == Some(Query(c.userInput, if c.selectedCategory == AllCategories then None else Some(c.selectedCategory)))
  {
    if Blank(c.userInput) then (c, None)
    else
      var category := if c.selectedCategory == AllCategories then None else Some(c.selectedCategory);
      (c.(messages := c.messages + [Message(User, c.userInput)], userInput := "", isLoading := true),
       Some(Query(c.userInput, category)))
  }

  /** How the query ended: the number of results, or an error. */
  datatype Answer = Results(count: nat) | QueryFailed

  function FoundText(count: nat): string
  {
    "J'ai trouvé " + NatToString(count) + " résultat(s) pertinent(s)."
  }

  /** The bot's reply for an answer. */
  function ReplyText(a: Answer): (t: string)
    ensures a.Results? && a.count > 0 ==> t == FoundText(a.count)
    ensures a == Results(0) ==> t == NothingFound
    ensures a.QueryFailed? ==> t == Apology
  {
    match a
    case Results(n) => if n > 0 then FoundText(n) else NothingFound
    case QueryFailed => Apology
  }

  /** The rest of `sendMessage()`: one bot message is appended, the results
      are kept on success, and loading ends whatever happened. */
  function Complete(c: State, a: Answer): (r: State)
    ensures r.messages == c.messages + [Message(Bot, ReplyText(a))]
    ensures !r.isLoading
    ensures r.userInput == c.userInput && r.selectedCategory == c.selectedCategory
    ensures a.Results? ==> r.resultCount == a.count
    ensures a.QueryFailed? ==> r.resultCount == c.resultCount
  {
    var withResults := match a
      case Results(n) => c.(resultCount := n)
      case QueryFailed => c;
    withResults.(messages := c.messages + [Message(Bot, ReplyText(a))], isLoading := false)
  }

  /** A whole non-blank send grows the conversation by exactly the user's
      message followed by one bot reply, and ends not loading. */
  lemma SendThenCompleteAddsTwo(c: State, a: Answer)
    requires !Blank(c.userInput)
    ensures var r := Complete(Send(c).0, a);
      && r.messages == c.messages + [Message(User, c.userInput), Message(Bot, ReplyText(a))]
      && |r.messages| == |c.messages| + 2
      && !r.isLoading
  {
    assert c.messages + [Message(User, c.userInput)] + [Message(Bot, ReplyText(a))]
        == c.messages + [Message(User, c.userInput), Message(Bot, ReplyText(a))];
  }

  /** The three bot replies are distinct, so the reply tells the outcome. */
  lemma ReplyTellsOutcome(a: Answer, b: Answer)
    requires ReplyText(a) == ReplyText(b)
    ensures a.QueryFailed? <==> b.QueryFailed?
    ensures a.Results? ==> (a.count == 0 <==> b.count == 0)
  {
    if a.Results? && a.count > 0 {
      assert ReplyText(a)[1] == '\'';
    }
    if b.Results? && b.count > 0 {
      assert ReplyText(b)[1] == '\'';
    }
  }
}

=== FILE: chunker.dfy ===
/** `split_text_into_chunks` (`embedding_generator.py`): a greedy packer of
    the text's words into chunks under a character budget, where each word
    costs its length plus one. The encoder the chunks are fed to is not part
    of this model. */
module Chunker {
  import opened Text

  /** The budget Python uses when the caller passes none. */
  const DefaultMaxChunkSize := 512

  /** Σ(len(w) + 1) over a group of words: the loop's `current_size`. */
  function Size(ws: seq<string>): nat
    decreases |ws|
  {
    if |ws| == 0 then 0 else Size(ws[..|ws| - 1]) + |ws[|ws| - 1]| + 1
  }

  /** The words of all chunks, in order: `[w for c in chunks for w in c.split()]`. */
  function FlatWords(chunks: seq<string>): seq<string>
    decreases |chunks|
  {
    if |chunks| == 0 then [] else FlatWords(chunks[..|chunks| - 1]) + Words(chunks[|chunks| - 1])
  }

  lemma SizeSnoc(ws: seq<string>, w: string)
    ensures Size(ws + [w]) == Size(ws) + |w| + 1
  {
    assert (ws + [w])[..|ws|] == ws;
  }

  lemma FlatWordsSnoc(chunks: seq<string>, c: string)
    ensures FlatWords(chunks + [c]) == FlatWords(chunks) + Words(c)
  {
    assert (chunks + [c])[..|chunks|] == chunks;
  }

  /** One word's cost is part of its group's size. */
  lemma {:induction false} SizeCoversEachWord(ws: seq<string>, j: int)
    requires 0 <= j < |ws|
    ensures Size(ws) >= |ws[j]| + 1
    decreases |ws|
  {
    if j < |ws| - 1 {
      SizeCoversEachWord(ws[..|ws| - 1], j);
    }
  }

  /** A chunk of two or more words fits the budget (a single word may not). */
  ghost predicate Fits(c: string, maxChunkSize: int)
  {
    |Words(c)| >= 2 ==> Size(Words(c)) <= maxChunkSize
  }

  /** Chunk `i` was closed only because the next chunk's first word would
      have overflowed it. */
  ghost predicate ClosedWhenFull(chunks: seq<string>, i: int, maxChunkSize: int)
    requires 0 <= i < |chunks| - 1
  {
    |Words(chunks[i + 1])| > 0 && Size(Words(chunks[i])) + |Words(chunks[i + 1])[0]| + 1 > maxChunkSize
  }

  /** Every chunk fits the budget. */
  ghost predicate AllFit(chunks: seq<string>, maxChunkSize: int)
  {
    forall i :: 0 <= i < |chunks| ==> Fits(chunks[i], maxChunkSize)
  }

  /** Every chunk but the first holds at least one word. */
  ghost predicate OnlyFirstEmpty(chunks: seq<string>)
  {
    forall i :: 0 < i < |chunks| ==> chunks[i] != "" && |Words(chunks[i])| > 0
  }

  /** Every chunk but the last was closed only when full. */
  ghost predicate AllClosedWhenFull(chunks: seq<string>, maxChunkSize: int)
  {
    forall i :: 0 <= i < |chunks| - 1 ==> ClosedWhenFull(chunks, i, maxChunkSize)
  }

  /** What the packing guarantees of a list of chunks: each fits, only the
      first may be empty, and each was closed only when full. */
  ghost predicate Packed(chunks: seq<string>, maxChunkSize: int)
  {
    AllFit(chunks, maxChunkSize) && OnlyFirstEmpty(chunks) && AllClosedWhenFull(chunks, maxChunkSize)
  }

  /** A group of words that may be closed as the chunk after `chunks`: it
      fits, and its first word did not fit in the previous chunk. */
  ghost predicate Closable(chunks: seq<string>, g: seq<string>, maxChunkSize: int)
  {
    && (forall i :: 0 <= i < |g| ==> IsWord(g[i]))
    && (|g| >= 2 ==> Size(g) <= maxChunkSize)
    && (|chunks| > 0 ==> |g| > 0 && Size(Words(chunks[|chunks| - 1])) + |g[0]| + 1 > maxChunkSize)
  }

  lemma CloseKeepsFit(chunks: seq<string>, g: seq<string>, maxChunkSize: int)
    requires AllFit(chunks, maxChunkSize) && Closable(chunks, g, maxChunkSize)
    ensures AllFit(chunks + [Join(g)], maxChunkSize)
  {
    WordsOfJoin(g);
    var r := chunks + [Join(g)];
    forall i | 0 <= i < |r|
      ensures Fits(r[i], maxChunkSize)
    {
      if i < |chunks| {
        assert r[i] == chunks[i];
      }
    }
  }

  lemma CloseKeepsOnlyFirstEmpty(chunks: seq<string>, g: seq<string>, maxChunkSize: int)
    requires OnlyFirstEmpty(chunks) && Closable(chunks, g, maxChunkSize)
    ensures OnlyFirstEmpty(chunks + [Join(g)])
  {
    WordsOfJoin(g);
    var r := chunks + [Join(g)];
    assert Join(g) == "" ==> Words(Join(g)) == [];
    forall i | 0 < i < |r|
      ensures r[i] != "" && |Words(r[i])| > 0
    {
      if i < |chunks| {
        assert r[i] == chunks[i];
      }
    }
  }

  lemma CloseKeepsClosedWhenFull(chunks: seq<string>, g: seq<string>, maxChunkSize: int)
    requires AllClosedWhenFull(chunks, maxChunkSize) && Closable(chunks, g, maxChunkSize)
    ensures AllClosedWhenFull(chunks + [Join(g)], maxChunkSize)
  {
    WordsOfJoin(g);
    var r := chunks + [Join(g)];
    forall i | 0 <= i < |r| - 1
      ensures ClosedWhenFull(r, i, maxChunkSize)
    {
      if i < |chunks| - 1 {
        assert ClosedWhenFull(chunks, i, maxChunkSize);
        assert r[i] == chunks[i] && r[i + 1] == chunks[i + 1];
      } else {
        assert r[i] == chunks[|chunks| - 1] && r[i + 1] == Join(g);
      }
    }
  }

  /** Closing a group of words as a new chunk keeps the packing, when the group
      fits and its first word did not fit in the previous chunk. */
  lemma CloseChunk(chunks: seq<string>, g: seq<string>, maxChunkSize: int)
    requires Packed(chunks, maxChunkSize) && Closable(chunks, g, maxChunkSize)
    ensures Packed(chunks + [Join(g)], maxChunkSize)
    ensures FlatWords(chunks + [Join(g)]) == FlatWords(chunks) + g
    ensures |g| > 0 <==> Join(g) != ""
  {
    CloseKeepsFit(chunks, g, maxChunkSize);
    CloseKeepsOnlyFirstEmpty(chunks, g, maxChunkSize);
    CloseKeepsClosedWhenFull(chunks, g, maxChunkSize);
    WordsOfJoin(g);
    FlatWordsSnoc(chunks, Join(g));
    assert Join(g) == "" ==> Words(Join(g)) == [];
  }

  /** Every chunk is its words joined by single spaces, as `' '.join`
      writes it: no other spacing of the same words is a chunk. */
  ghost predicate AllJoined(chunks: seq<string>)
  {
    forall i :: 0 <= i < |chunks| ==> chunks[i] == Join(Words(chunks[i]))
  }

  /** A group of words closed with `Join` is its words joined again. */
  lemma JoinedSnoc(chunks: seq<string>, g: seq<string>)
    requires AllJoined(chunks)
    requires forall i :: 0 <= i < |g| ==> IsWord(g[i])
    ensures AllJoined(chunks + [Join(g)])
  {
    WordsOfJoin(g);
    var r := chunks + [Join(g)];
    forall i | 0 <= i < |r|
      ensures r[i] == Join(Words(r[i]))
    {
      if i < |chunks| {
        assert r[i] == chunks[i];
      }
    }
  }

  /** The bookkeeping of the loop after reading the first `k` words: the
      chunks closed so far plus the open group hold exactly those words, and
      the open group's size is tracked. */
  ghost predicate Consumed(words: seq<string>, k: int, chunks: seq<string>, current: seq<string>, size: int)
  {
    && 0 <= k <= |words|
    && (forall i :: 0 <= i < |words| ==> IsWord(words[i]))
    && FlatWords(chunks) + current == words[..k]
    && AllJoined(chunks)
    && size == Size(current)
    && (forall i :: 0 <= i < |current| ==> IsWord(current[i]))
    && (k == 0 ==> chunks == [] && current == [])
    && (k > 0 ==> |current| > 0)
  }

  /** The shape of the loop's state: the closed chunks are packed, the open
      group may be closed after them, and the first chunk is empty exactly
      when the first word alone overflowed. */
  ghost predicate Shaped(words: seq<string>, k: int, chunks: seq<string>, current: seq<string>, maxChunkSize: int)
    requires 0 <= k <= |words|
  {
    && Packed(chunks, maxChunkSize)
    && Closable(chunks, current, maxChunkSize)
    && (k > 0 ==> ((|chunks| > 0 && chunks[0] == "") <==> |words[0]| + 1 > maxChunkSize))
  }

  /** The loop invariant. */
  ghost predicate Scanned(words: seq<string>, k: int, chunks: seq<string>, current: seq<string>, size: int, maxChunkSize: int)
  {
    Consumed(words, k, chunks, current, size) && Shaped(words, k, chunks, current, maxChunkSize)
  }

  /** Before the first word: nothing is read and nothing is open. */
  lemma ScanStart(words: seq<string>, maxChunkSize: int)
    requires forall i :: 0 <= i < |words| ==> IsWord(words[i])
    ensures Scanned(words, 0, [], [], 0, maxChunkSize)
  {
    assert words[..0] == [];
  }

  lemma WordsPrefixSnoc(words: seq<string>, k: int)
    requires 0 <= k < |words|
    ensures words[..k + 1] == words[..k] + [words[k]]
  {
  }

  lemma SizeOne(w: string)
    ensures Size([w]) == |w| + 1
  {
    SizeSnoc([], w);
    assert [] + [w] == [w];
  }

  lemma OpenConsumed(words: seq<string>, k: int, chunks: seq<string>, current: seq<string>, size: int)
    requires Consumed(words, k, chunks, current, size) && k < |words|
    ensures Consumed(words, k + 1, chunks + [Join(current)], [words[k]], |words[k]| + 1)
  {
    var w := words[k];
    WordsOfJoin(current);
    FlatWordsSnoc(chunks, Join(current));
    JoinedSnoc(chunks, current);
    SizeOne(w);
    WordsPrefixSnoc(words, k);
    assert FlatWords(chunks + [Join(current)]) + [w] == words[..k + 1];
  }

  lemma OpenShaped(words: seq<string>, k: int, chunks: seq<string>, current: seq<string>, size: int, maxChunkSize: int)
    requires Scanned(words, k, chunks, current, size, maxChunkSize)
    requires k < |words| && size + |words[k]| + 1 > maxChunkSize
    ensures Shaped(words, k + 1, chunks + [Join(current)], [words[k]], maxChunkSize)
  {
    var w := words[k];
    var r := chunks + [Join(current)];
    CloseChunk(chunks, current, maxChunkSize);
    WordsOfJoin(current);
    assert r[|r| - 1] == Join(current);
    assert Closable(r, [w], maxChunkSize);
    assert (r[0] == "") <==> |words[0]| + 1 > maxChunkSize by {
      if |chunks| > 0 {
        assert r[0] == chunks[0];
      } else if k > 0 {
        assert current[0] == words[0] by {
          assert FlatWords(chunks) == [];
          assert current == words[..k];
        }
      }
    }
  }

  /** The next word overflows the open group: the group is closed and the
      word opens a new one. */
  lemma CloseThenOpen(words: seq<string>, k: int, chunks: seq<string>, current: seq<string>, size: int, maxChunkSize: int)
    requires Scanned(words, k, chunks, current, size, maxChunkSize)
    requires k < |words| && size + |words[k]| + 1 > maxChunkSize
    ensures Scanned(words, k + 1, chunks + [Join(current)], [words[k]], |words[k]| + 1, maxChunkSize)
  {
    OpenConsumed(words, k, chunks, current, size);
    OpenShaped(words, k, chunks, current, size, maxChunkSize);
  }

  /** The next word fits: it joins the open group. */
  lemma Extend(words: seq<string>, k: int, chunks: seq<string>, current: seq<string>, size: int, maxChunkSize: int)
    requires Scanned(words, k, chunks, current, size, maxChunkSize)
    requires k < |words| && size + |words[k]| + 1 <= maxChunkSize
    ensures Scanned(words, k + 1, chunks, current + [words[k]], size + |words[k]| + 1, maxChunkSize)
  {
    SizeSnoc(current, words[k]);
    WordsPrefixSnoc(words, k);
    assert FlatWords(chunks) + (current + [words[k]]) == words[..k + 1];
    assert |chunks| > 0 && |current| == 0 ==> k == 0;
  }

  /** After the last word: closing a non-empty open group yields a packed
      list holding exactly the words. */
  lemma FlushLast(words: seq<string>, chunks: seq<string>, current: seq<string>, size: int, maxChunkSize: int, r: seq<string>)
    requires Scanned(words, |words|, chunks, current, size, maxChunkSize)
    requires r == if |current| > 0 then chunks + [Join(current)] else chunks
    ensures words == [] ==> r == []
    ensures FlatWords(r) == words
    ensures Packed(r, maxChunkSize)
    ensures |words| > 0 ==> (r[0] == "" <==> |words[0]| + 1 > maxChunkSize)
    ensures |words| > 0 ==> r[|r| - 1] != ""
    ensures AllJoined(r)
  {
    assert words[..|words|] == words;
    if |current| > 0 {
      CloseChunk(chunks, current, maxChunkSize);
      JoinedSnoc(chunks, current);
      assert |chunks| > 0 ==> r[0] == chunks[0];
    }
  }

  /** One pass of the Python loop body for `words[k]`: a word that would
      overflow the open group closes it as a chunk and opens a new group;
      otherwise it joins the open group. */
  method ScanWord(words: seq<string>, k: int, chunks: seq<string>, current: seq<string>, size: int, maxChunkSize: int)
    returns (chunks': seq<string>, current': seq<string>, size': int)
    requires Scanned(words, k, chunks, current, size, maxChunkSize)
    requires k < |words|
    ensures Scanned(words, k + 1, chunks', current', size', maxChunkSize)
    ensures size + |words[k]| + 1 > maxChunkSize ==> chunks' == chunks + [Join(current)] && current' == [words[k]]
    ensures size + |words[k]| + 1 <= maxChunkSize ==> chunks' == chunks && current' == current + [words[k]]
  {
    var word := words[k];
    if size + |word| + 1 > maxChunkSize {
      CloseThenOpen(words, k, chunks, current, size, maxChunkSize);
      chunks', current', size' := chunks + [Join(current)], [word], |word| + 1;
    } else {
      Extend(words, k, chunks, current, size, maxChunkSize);
      chunks', current', size' := chunks, current + [word], size + |word| + 1;
    }
  }

  /** The Python loop, one `ScanWord` per word. The chunks' words are the
      text's words in order; the chunks are packed (see `Packed`); the first
      chunk is empty exactly when the first word alone exceeds the budget;
      the last chunk is never empty; and each chunk is its words joined by
      single spaces. Without a budget the Python default applies. */
  method SplitTextIntoChunks(text: string, maxChunkSize: int := DefaultMaxChunkSize) returns (chunks: seq<string>)
    ensures Words(text) == [] ==> chunks == []
    ensures FlatWords(chunks) == Words(text)
    ensures forall i :: 0 <= i < |chunks| ==> chunks[i] == Join(Words(chunks[i]))
    ensures Packed(chunks, maxChunkSize)
    ensures |Words(text)| > 0 ==> (chunks[0] == "" <==> |Words(text)[0]| + 1 > maxChunkSize)
    ensures |Words(text)| > 0 ==> chunks[|chunks| - 1] != ""
  {
    var words := Words(text);
    chunks := [];
    var current: seq<string> := [];
    var size := 0;
    var k := 0;
    ScanStart(words, maxChunkSize);
    while k < |words|
      invariant Scanned(words, k, chunks, current, size, maxChunkSize)
    {
      chunks, current, size := ScanWord(words, k, chunks, current, size, maxChunkSize);
      k := k + 1;
    }
    ghost var closed := chunks;
    if |current| > 0 {
      chunks := chunks + [Join(current)];
    }
    FlushLast(words, closed, current, size, maxChunkSize, chunks);
  }

  /** A word longer than the budget is never split: a packed chunk holding
      it holds nothing else. */
  lemma LongWordStandsAlone(c: string, maxChunkSize: int, j: int)
    requires Fits(c, maxChunkSize)
    requires 0 <= j < |Words(c)| && |Words(c)[j]| + 1 > maxChunkSize
    ensures Words(c) == [Words(c)[j]]
  {
    SizeCoversEachWord(Words(c), j);
  }

  lemma {:induction false} SizeCons(w: string, ws: seq<string>)
    ensures Size([w] + ws) == |w| + 1 + Size(ws)
    decreases |ws|
  {
    if |ws| == 0 {
      assert [w] + ws == [w];
      SizeSnoc([], w);
      assert [] + [w] == [w];
    } else {
      var init := ws[..|ws| - 1];
      var last := ws[|ws| - 1];
      assert ws == init + [last];
      assert [w] + ws == ([w] + init) + [last];
      SizeSnoc([w] + init, last);
      SizeSnoc(init, last);
      SizeCons(w, init);
    }
  }

  /** The budget counts characters: a chunk built from a non-empty group is
      one character shorter than the group's size, so a packed multi-word
      chunk is shorter than `maxChunkSize`. */
  lemma {:induction false} JoinLength(g: seq<string>)
    requires |g| > 0
    ensures |Join(g)| + 1 == Size(g)
    decreases |g|
  {
    if |g| == 1 {
      SizeCons(g[0], []);
      assert [g[0]] + [] == g;
    } else {
      JoinLength(g[1..]);
      SizeCons(g[0], g[1..]);
      assert [g[0]] + g[1..] == g;
    }
  }
}

=== FILE: document_list.dfy ===
/** The document list page (`document-list.component.ts`): the category
    filter over the loaded documents and the flags of `loadDocuments`. */
module DocumentList {
  import opened Base

  /** A document as listed; the metadata and text are carried along
      unexamined. */
  datatype Document = Document(id: string, category: string, filename: string, text: string)

  datatype State = State(
    documents: seq<Document>,
    filteredDocuments: seq<Document>,
    selectedCategory: string,
    isLoading: bool,
    error: Option<string>)

  const AllCategories := "Tous"
  const LoadFailedDefault := "Erreur lors du chargement des documents"

  /** The component as constructed: loading until the first load ends. */
  const Initial := State([], [], AllCategories, true, None)

  function InCategory(category: string): Document -> bool
  {
    (d: Document) => d.category == category
  }

  /** `filterDocuments()` as a function of the list and the selection:
      "Tous" keeps everything, any other value keeps the documents of that
      category, in order. */
  function FilterDocuments(documents: seq<Document>, category: string): (r: seq<Document>)
    ensures category == AllCategories ==> r == documents
    ensures category != AllCategories ==> forall d :: d in r <==> d in documents && d.category == category
    ensures Subseq(r, documents)
    ensures forall d :: multiset(r)[d] == if category == AllCategories || d.category == category then multiset(documents)[d] else 0
  {
    if category == AllCategories then
      SubseqReflexive(documents);
      documents
    else Filter(documents, InCategory(category))
  }

  /** Filtering an already filtered list again with the same selection
      changes nothing. */
  lemma FilterDocumentsIdempotent(documents: seq<Document>, category: string)
    ensures FilterDocuments(FilterDocuments(documents, category), category) == FilterDocuments(documents, category)
  {
    if category != AllCategories {
      var once := Filter(documents, InCategory(category));
      FilterKeepsAllIff(once, InCategory(category));
    }
  }

  /** `onCategoryChange()`: only the filtered list changes. */
  function SelectCategory(s: State, category: string): (r: State)
    ensures r.documents == s.documents && r.selectedCategory == category
    ensures r.filteredDocuments == FilterDocuments(s.documents, category)
    ensures r.isLoading == s.isLoading && r.error == s.error
  {
    s.(selectedCategory := category, filteredDocuments := FilterDocuments(s.documents, category))
  }

  /** How the request for the documents ended. */
  datatype Fetch = Fetched(documents: seq<Document>) | FetchFailed(message: Option<string>)

  /** `loadDocuments()` from start to end: loading stops whatever happens;
      on success the list is replaced and refiltered, on failure the lists
      stay and `error` holds the message or the default text. */
  function LoadDocuments(s: State, fetch: Fetch): (r: State)
    ensures !r.isLoading
    ensures r.selectedCategory == s.selectedCategory
    ensures fetch.Fetched? ==>
      && r.documents == fetch.documents
      && r.filteredDocuments == FilterDocuments(fetch.documents, s.selectedCategory)
      && r.error.None?
    ensures fetch.FetchFailed? ==>
      && r.documents == s.documents && r.filteredDocuments == s.filteredDocuments
      && r.error.Some? && r.error.value != ""
      && (fetch.message.Some? && fetch.message.value != "" ==> r.error == fetch.message)
      && ((fetch.message.None? || fetch.message.value == "") ==> r.error == Some(LoadFailedDefault))
  {
    var started := s.(isLoading := true, error := None);
    var ended := match fetch
      case Fetched(docs) =>
        started.(documents := docs, filteredDocuments := FilterDocuments(docs, s.selectedCategory))
      case FetchFailed(message) =>
        var text := if message.Some? && message.value != "" then message.value else LoadFailedDefault;
        started.(error := Some(text));
    ended.(isLoading := false)
  }

  /** The shown list is the stored list filtered by the selection. */
  predicate Consistent(s: State)
  {
    s.filteredDocuments == FilterDocuments(s.documents, s.selectedCategory)
  }

  /** The page starts consistent, and both a category change and a
      successful load keep it so; a failed load keeps a consistent page
      consistent, since it leaves the lists and the selection alone. */
  lemma ConsistentPreserved(s: State, category: string, fetch: Fetch)
    ensures Consistent(Initial)
    ensures Consistent(SelectCategory(s, category))
    ensures fetch.Fetched? ==> Consistent(LoadDocuments(s, fetch))
    ensures Consistent(s) ==> Consistent(LoadDocuments(s, fetch))
  {
  }
}

=== FILE: file_select.dfy ===
/** The PDF-only file picker shared by the model creation and model detail
    pages (`onFileSelect` in both components). */
module FileSelect {
  import opened Base
  import opened Text
  import Toasts

  /** A browser `File`, reduced to what the picker looks at. */
  datatype SelectedFile = SelectedFile(name: string, mimeType: string)

  const PdfType := "application/pdf"

  predicate IsPdf(f: SelectedFile)
  {
    f.mimeType == PdfType
  }

  function SkippedMessage(count: nat): string
  {
    NatToString(count) + " file(s) were skipped because they are not PDFs"
  }

  /** `onFileSelect`: `files` is `input.files`, absent when the input carries
      no file list. The selection becomes exactly the PDF-typed files, in
      order; a warning is raised exactly when some file was not a PDF. */
  function Select(files: Option<seq<SelectedFile>>, selected: seq<SelectedFile>, toasts: Toasts.Queue)
    : (r: (seq<SelectedFile>, Toasts.Queue))
    ensures files.None? ==> r == (selected, toasts)
    ensures files.Some? ==> Subseq(r.0, files.value) && |r.0| <= |files.value|
    ensures files.Some? ==> forall f :: multiset(r.0)[f] == if IsPdf(f) then multiset(files.value)[f] else 0
    ensures files.Some? ==>
      (r.1 != toasts <==> exists i :: 0 <= i < |files.value| && !IsPdf(files.value[i]))
    ensures files.Some? && r.1 != toasts ==>
      r.1 == Toasts.Warning(toasts, SkippedMessage(|files.value| - |r.0|), None)
  {
    match files
    case None => (selected, toasts)
    case Some(fs) =>
      var pdfs := Filter(fs, IsPdf);
      FilterKeepsAllIff(fs, IsPdf);
      var skipped := |fs| - |pdfs|;
      (pdfs, if skipped > 0 then Toasts.Warning(toasts, SkippedMessage(skipped), None) else toasts)
  }
}

=== FILE: json.dfy ===
/** The JSON text the model store keeps in its `files` column: `json.dumps`
    of either a list of file records or a string, and the `json.loads` that
    reads it back. Only the shapes the store writes are covered, in the
    layout Python's default separators produce. */
module Json {
  import opened Base

  /** One uploaded file as the store records it. */
  datatype FileRecord = FileRecord(id: string, name: string, path: string)

  /** A value the store keeps in a model record: plain text, or the list of
      file records held under `files`. */
  datatype Value = Str(text: string) | FileList(files: seq<FileRecord>)

  /** The escape sequence for one character inside a JSON string. */
  function EscapeChar(c: char): string
  {
    if c == '"' || c == '\\' then ['\\', c] else [c]
  }

  function Escape(s: string): string
    decreases |s|
  {
    if |s| == 0 then "" else EscapeChar(s[0]) + Escape(s[1..])
  }

  /** A string literal, followed by the text `after`. */
  function WriteString(s: string, after: string): string
  {
    "\"" + (Escape(s) + ("\"" + after))
  }

  /** One file record as `{"id": …, "name": …, "path": …}`, followed by `after`. */
  function WriteRecord(f: FileRecord, after: string): string
  {
    "{\"id\": " + WriteString(f.id, ", \"name\": " + WriteString(f.name, ", \"path\": " + WriteString(f.path, "}" + after)))
  }

  /** Each record of `fs` preceded by `", "`, followed by `after`. */
  function WriteTail(fs: seq<FileRecord>, after: string): string
    decreases |fs|
  {
    if |fs| == 0 then after else ", " + WriteRecord(fs[0], WriteTail(fs[1..], after))
  }

  /** `json.dumps(v)` with the default separators. The first character
      tells a string from a list. */
  function Dumps(v: Value): (r: string)
    ensures |r| >= 2
    ensures v.Str? <==> r[0] == '"'
    ensures v.FileList? <==> r[0] == '['
  {
    match v
    case Str(s) => WriteString(s, "")
    case FileList(fs) =>
      if |fs| == 0 then "[]" else "[" + WriteRecord(fs[0], WriteTail(fs[1..], "]"))
  }

  /** The remainder of `s` after the literal `lit`, if `s` starts with it. */
  function Lit(lit: string, s: string): (r: Option<string>)
    ensures r.Some? <==> |lit| <= |s| && s[..|lit|] == lit
    ensures r.Some? ==> r.value == s[|lit|..]
  {
    if |lit| <= |s| && s[..|lit|] == lit then Some(s[|lit|..]) else None
  }

  /** The body of a string literal up to its closing quote, unescaped, and
      the text after the quote. */
  function ParseBody(s: string): (r: Option<(string, string)>)
    ensures r.Some? ==> |r.value.1| < |s|
    decreases |s|
  {
    if |s| == 0 then None
    else if s[0] == '"' then Some(("", s[1..]))
    else if s[0] == '\\' then
      if |s| < 2 || !(s[1] == '"' || s[1] == '\\') then None
      else match ParseBody(s[2..])
        case None => None
        case Some((b, rest)) => Some(([s[1]] + b, rest))
    else match ParseBody(s[1..])
      case None => None
      case Some((b, rest)) => Some(([s[0]] + b, rest))
  }

  function ParseString(s: string): (r: Option<(string, string)>)
    ensures r.Some? ==> |r.value.1| < |s|
  {
    if |s| > 0 && s[0] == '"' then ParseBody(s[1..]) else None
  }

  /** A key such as `"name": ` followed by a string literal. */
  function ParseField(key: string, s: string): (r: Option<(string, string)>)
    ensures r.Some? ==> |r.value.1| < |s|
  {
    match Lit(key, s)
    case None => None
    case Some(s1) => ParseString(s1)
  }

  function ParseRecord(s: string): (r: Option<(FileRecord, string)>)
    ensures r.Some? ==> |r.value.1| < |s|
  {
    match ParseField("{\"id\": ", s)
    case None => None
    case Some((id, s1)) =>
      match ParseField(", \"name\": ", s1)
      case None => None
      case Some((name, s2)) =>
        match ParseField(", \"path\": ", s2)
        case None => None
        case Some((path, s3)) =>
          match Lit("}", s3)
          case None => None
          case Some(rest) => Some((FileRecord(id, name, path), rest))
  }

  /** The records of a list after its first, up to and including `]`. */
  function ParseTail(s: string): (r: Option<(seq<FileRecord>, string)>)
    ensures r.Some? ==> |r.value.1| < |s|
    decreases |s|
  {
    match Lit("]", s)
    case Some(rest) => Some(([], rest))
    case None =>
      match Lit(", ", s)
      case None => None
      case Some(s1) =>
        match ParseRecord(s1)
        case None => None
        case Some((f, s2)) =>
          match ParseTail(s2)
          case None => None
          case Some((fs, rest)) => Some(([f] + fs, rest))
  }

  function ParseValue(s: string): Option<(Value, string)>
  {
    match ParseString(s)
    case Some((t, rest)) => Some((Str(t), rest))
    case None =>
      match Lit("[]", s)
      case Some(rest) => Some((FileList([]), rest))
      case None =>
        match Lit("[", s)
        case None => None
        case Some(s1) =>
          match ParseRecord(s1)
          case None => None
          case Some((f, s2)) =>
            match ParseTail(s2)
            case None => None
            case Some((fs, rest)) => Some((FileList([f] + fs), rest))
  }

  /** `json.loads(s)`: the whole text must be one value; anything else is
      the `JSONDecodeError` the caller sees as `None`. */
  function Loads(s: string): (r: Option<Value>)
    ensures r.Some? ==> Dumps(r.value) == s
  {
    match ParseValue(s)
    case Some((v, rest)) =>
      if rest == "" then
        ParseValueCanonical(s);
        Some(v)
      else None
    case None => None
  }

  lemma LitPrefix(lit: string, rest: string)
    ensures Lit(lit, lit + rest) == Some(rest)
  {
    assert (lit + rest)[..|lit|] == lit;
    assert (lit + rest)[|lit|..] == rest;
  }

  /** One escaped character in front of a readable body is read back as
      that character. */
  lemma ParseBodyChar(c: char, tail: string, body: string, rest: string)
    requires ParseBody(tail) == Some((body, rest))
    ensures ParseBody(EscapeChar(c) + tail) == Some(([c] + body, rest))
  {
    var t := EscapeChar(c) + tail;
    if c == '"' || c == '\\' {
      assert t[0] == '\\' && t[1] == c;
      assert t[2..] == tail;
    } else {
      assert t[0] == c;
      assert t[1..] == tail;
    }
  }

  /** Unescaping reads back exactly what escaping wrote, and stops at the
      first unescaped quote whatever follows it. */
  lemma {:induction false} ParseBodyEscape(s: string, rest: string)
    ensures ParseBody(Escape(s) + ("\"" + rest)) == Some((s, rest))
    decreases |s|
  {
    if |s| == 0 {
      var t := Escape(s) + ("\"" + rest);
      assert t == "\"" + rest;
      assert t[1..] == rest;
    } else {
      var tail := Escape(s[1..]) + ("\"" + rest);
      ParseBodyEscape(s[1..], rest);
      assert Escape(s) + ("\"" + rest) == EscapeChar(s[0]) + tail;
      ParseBodyChar(s[0], tail, s[1..], rest);
      assert [s[0]] + s[1..] == s;
    }
  }

  lemma ParseStringWrite(s: string, rest: string)
    ensures ParseString(WriteString(s, rest)) == Some((s, rest))
  {
    var t := WriteString(s, rest);
    assert t[1..] == Escape(s) + ("\"" + rest);
    ParseBodyEscape(s, rest);
  }

  lemma ParseFieldWrite(key: string, v: string, rest: string)
    ensures ParseField(key, key + WriteString(v, rest)) == Some((v, rest))
  {
    LitPrefix(key, WriteString(v, rest));
    ParseStringWrite(v, rest);
  }

  lemma ParseRecordWrite(f: FileRecord, rest: string)
    ensures ParseRecord(WriteRecord(f, rest)) == Some((f, rest))
  {
    var s3 := "}" + rest;
    var s2 := ", \"path\": " + WriteString(f.path, s3);
    var s1 := ", \"name\": " + WriteString(f.name, s2);
    ParseFieldWrite("{\"id\": ", f.id, s1);
    ParseFieldWrite(", \"name\": ", f.name, s2);
    ParseFieldWrite(", \"path\": ", f.path, s3);
    LitPrefix("}", rest);
  }

  /** A text that differs from a literal at some position within both does
      not start with it. */
  lemma LitMismatch(lit: string, s: string, j: nat)
    requires j < |lit| && j < |s| && s[j] != lit[j]
    ensures Lit(lit, s) == None
  {
    if |lit| <= |s| {
      assert s[..|lit|][j] == s[j];
    }
  }

  /** One step of the list reader after the first record: `", "`, a record,
      then the rest of the list. */
  lemma ParseTailStep(s1: string, f: FileRecord, s2: string, fs: seq<FileRecord>, rest: string)
    requires ParseRecord(s1) == Some((f, s2)) && ParseTail(s2) == Some((fs, rest))
    ensures ParseTail(", " + s1) == Some(([f] + fs, rest))
  {
    var t := ", " + s1;
    assert t[0] == ',';
    LitMismatch("]", t, 0);
    LitPrefix(", ", s1);
  }

  lemma {:induction false} ParseTailWrite(fs: seq<FileRecord>, rest: string)
    ensures ParseTail(WriteTail(fs, "]" + rest)) == Some((fs, rest))
    decreases |fs|
  {
    if |fs| == 0 {
      LitPrefix("]", rest);
    } else {
      var s2 := WriteTail(fs[1..], "]" + rest);
      var s1 := WriteRecord(fs[0], s2);
      assert WriteTail(fs, "]" + rest) == ", " + s1;
      ParseRecordWrite(fs[0], s2);
      ParseTailWrite(fs[1..], rest);
      ParseTailStep(s1, fs[0], s2, fs[1..], rest);
      assert [fs[0]] + fs[1..] == fs;
    }
  }

  /** The value reader on `[` followed by a record and the rest of a list. */
  lemma ParseValueStep(s1: string, s2: string, fs: seq<FileRecord>)
    requires |fs| > 0 && |s1| > 0 && s1[0] == '{'
    requires ParseRecord(s1) == Some((fs[0], s2)) && ParseTail(s2) == Some((fs[1..], ""))
    ensures ParseValue("[" + s1) == Some((FileList(fs), ""))
  {
    var t := "[" + s1;
    assert t[0] == '[' && t[1] == '{';
    LitMismatch("[]", t, 1);
    LitPrefix("[", s1);
    assert [fs[0]] + fs[1..] == fs;
  }

  /** The text written for a non-empty list: `[`, then its first record,
      which opens with `{`. */
  lemma DumpsList(fs: seq<FileRecord>)
    requires |fs| > 0
    ensures Dumps(FileList(fs)) == "[" + WriteRecord(fs[0], WriteTail(fs[1..], "]"))
    ensures |WriteRecord(fs[0], WriteTail(fs[1..], "]"))| > 0
    ensures WriteRecord(fs[0], WriteTail(fs[1..], "]"))[0] == '{'
  {
  }

  /** The records after the `[` of a written list read back, first record
      and then the rest. */
  lemma ParseItemsWrite(fs: seq<FileRecord>)
    requires |fs| > 0
    ensures ParseRecord(WriteRecord(fs[0], WriteTail(fs[1..], "]"))) == Some((fs[0], WriteTail(fs[1..], "]")))
    ensures ParseTail(WriteTail(fs[1..], "]")) == Some((fs[1..], ""))
  {
    ParseRecordWrite(fs[0], WriteTail(fs[1..], "]"));
    assert "]" + "" == "]";
    ParseTailWrite(fs[1..], "");
  }

  /** A non-empty list is read back from its `[`, its first record and the
      rest of its records. */
  lemma ParseValueList(fs: seq<FileRecord>)
    requires |fs| > 0
    ensures ParseValue(Dumps(FileList(fs))) == Some((FileList(fs), ""))
  {
    DumpsList(fs);
    ParseItemsWrite(fs);
    ParseValueStep(WriteRecord(fs[0], WriteTail(fs[1..], "]")), WriteTail(fs[1..], "]"), fs);
  }

  /** Reading back what was written gives the value again: the files column
      survives the store's write/read cycle unchanged. */
  lemma LoadsDumps(v: Value)
    ensures Loads(Dumps(v)) == Some(v)
  {
    match v
    case Str(s) =>
      ParseStringWrite(s, "");
    case FileList(fs) =>
      if |fs| == 0 {
        assert Dumps(v) == "[]";
        assert ParseString("[]") == None;
        LitPrefix("[]", "");
        assert "[]" + "" == "[]";
      } else {
        ParseValueList(fs);
      }
  }

  /** Distinct values are written as distinct texts. */
  lemma DumpsInjective(a: Value, b: Value)
    ensures Dumps(a) == Dumps(b) <==> a == b
  {
    if Dumps(a) == Dumps(b) {
      LoadsDumps(a);
      LoadsDumps(b);
    }
  }

  /** `Loads` accepts a text exactly when it is the text written for the
      value it reads: no other spelling of a value is read. */
  lemma LoadsIff(s: string, v: Value)
    ensures Loads(s) == Some(v) <==> s == Dumps(v)
  {
    LoadsDumps(v);
  }

  /** A literal that matches is what the text starts with. */
  lemma LitSplit(lit: string, s: string)
    requires Lit(lit, s).Some?
    ensures s == lit + Lit(lit, s).value
  {
    assert s == s[..|lit|] + s[|lit|..];
  }

  /** The body reader accepts only what escaping writes: the body it reads,
      escaped and followed by the closing quote and the rest, is the text it
      was given. */
  lemma {:induction false} ParseBodyCanonical(s: string)
    requires ParseBody(s).Some?
    ensures s == Escape(ParseBody(s).value.0) + ("\"" + ParseBody(s).value.1)
    decreases |s|
  {
    var (b, rest) := ParseBody(s).value;
    if s[0] == '"' {
      assert s == [s[0]] + s[1..];
    } else if s[0] == '\\' {
      var b1 := ParseBody(s[2..]).value.0;
      ParseBodyCanonical(s[2..]);
      assert b[1..] == b1;
      assert Escape(b) == EscapeChar(s[1]) + Escape(b1);
      assert s == s[..2] + s[2..];
    } else {
      var b1 := ParseBody(s[1..]).value.0;
      ParseBodyCanonical(s[1..]);
      assert b[1..] == b1;
      assert Escape(b) == EscapeChar(s[0]) + Escape(b1);
      assert s == [s[0]] + s[1..];
    }
  }

  lemma ParseStringCanonical(s: string)
    requires ParseString(s).Some?
    ensures s == WriteString(ParseString(s).value.0, ParseString(s).value.1)
  {
    ParseBodyCanonical(s[1..]);
    assert s == [s[0]] + s[1..];
  }

  lemma ParseFieldCanonical(key: string, s: string)
    requires ParseField(key, s).Some?
    ensures s == key + WriteString(ParseField(key, s).value.0, ParseField(key, s).value.1)
  {
    LitSplit(key, s);
    ParseStringCanonical(Lit(key, s).value);
  }

  /** The record reader accepts only the layout the writer produces. */
  lemma ParseRecordCanonical(s: string)
    requires ParseRecord(s).Some?
    ensures s == WriteRecord(ParseRecord(s).value.0, ParseRecord(s).value.1)
  {
    var (id, s1) := ParseField("{\"id\": ", s).value;
    var (name, s2) := ParseField(", \"name\": ", s1).value;
    var (path, s3) := ParseField(", \"path\": ", s2).value;
    ParseFieldCanonical("{\"id\": ", s);
    ParseFieldCanonical(", \"name\": ", s1);
    ParseFieldCanonical(", \"path\": ", s2);
    LitSplit("}", s3);
  }

  /** The list reader after the first record accepts only what the writer
      produces, up to and including the closing bracket. */
  lemma {:induction false} ParseTailCanonical(s: string)
    requires ParseTail(s).Some?
    ensures s == WriteTail(ParseTail(s).value.0, "]" + ParseTail(s).value.1)
    decreases |s|
  {
    if Lit("]", s).Some? {
      LitSplit("]", s);
    } else {
      var s1 := Lit(", ", s).value;
      var (f, s2) := ParseRecord(s1).value;
      var (fs, rest) := ParseTail(s2).value;
      LitSplit(", ", s);
      ParseRecordCanonical(s1);
      ParseTailCanonical(s2);
      assert ([f] + fs)[1..] == fs;
    }
  }

  /** A whole text read as one value is the text written for that value. */
  lemma ParseValueCanonical(s: string)
    requires ParseValue(s).Some? && ParseValue(s).value.1 == ""
    ensures s == Dumps(ParseValue(s).value.0)
  {
    if ParseString(s).Some? {
      ParseStringCanonical(s);
    } else if Lit("[]", s).Some? {
      LitSplit("[]", s);
    } else {
      var s1 := Lit("[", s).value;
      var (f, s2) := ParseRecord(s1).value;
      var fs := ParseTail(s2).value.0;
      LitSplit("[", s);
      ParseRecordCanonical(s1);
      ParseTailCanonical(s2);
      assert "]" + "" == "]";
      assert ([f] + fs)[1..] == fs;
    }
  }
}

=== FILE: loading.dfy ===
/** The global loading indicator (`loading.service.ts`): one `{isLoading,
    message}` value, overwritten by `show`, `hide` and `setMessage`. There is
    one indicator for the whole application and no counting of nested shows. */
module Loading {
  import opened Base

  datatype State = State(isLoading: bool, message: Option<string>)

  /** The `BehaviorSubject`'s seed value. */
  const Initial := State(false, None)

  /** `show(message?)`: the previous state, including its message, is replaced. */
  function Show(s: State, message: Option<string>): (r: State)
    ensures r.isLoading && r.message == message
  {
    State(true, message)
  }

  /** `hide()`: back to the initial state, whatever came before. */
  function Hide(s: State): (r: State)
    ensures !r.isLoading && r.message.None?
  {
    State(false, None)
  }

  /** `setMessage(message)`: only the message changes, and only while loading. */
  function SetMessage(s: State, message: string): (r: State)
    ensures r.isLoading == s.isLoading
    ensures s.isLoading ==> r.message == Some(message)
    ensures !s.isLoading ==> r == s
  {
    if s.isLoading then s.(message := Some(message)) else s
  }

  datatype Op = ShowOp(message: Option<string>) | HideOp | SetMessageOp(text: string)

  function Step(s: State, op: Op): State
  {
    match op
    case ShowOp(m) => Show(s, m)
    case HideOp => Hide(s)
    case SetMessageOp(m) => SetMessage(s, m)
  }

  function Run(s: State, ops: seq<Op>): State
    decreases |ops|
  {
    if |ops| == 0 then s else Run(Step(s, ops[0]), ops[1..])
  }

  /** Reachable states never carry a message while not loading. */
  ghost predicate Consistent(s: State)
  {
    !s.isLoading ==> s.message.None?
  }

  lemma {:induction false} RunKeepsConsistent(s: State, ops: seq<Op>)
    requires Consistent(s)
    ensures Consistent(Run(s, ops))
    decreases |ops|
  {
    if |ops| > 0 {
      RunKeepsConsistent(Step(s, ops[0]), ops[1..]);
    }
  }

  lemma {:induction false} RunSplit(s: State, a: seq<Op>, b: seq<Op>)
    ensures Run(s, a + b) == Run(Run(s, a), b)
    decreases |a|
  {
    if |a| > 0 {
      assert (a + b)[0] == a[0] && (a + b)[1..] == a[1..] + b;
      RunSplit(Step(s, a[0]), a[1..], b);
    } else {
      assert a + b == b;
    }
  }

  /** Without a `show`, `setMessage` and `hide` cannot make a hidden
      indicator visible again. */
  lemma {:induction false} HiddenStaysHidden(ops: seq<Op>)
    requires forall i :: 0 <= i < |ops| ==> !ops[i].ShowOp?
    ensures Run(Initial, ops) == Initial
    decreases |ops|
  {
    if |ops| > 0 {
      HiddenStaysHidden(ops[1..]);
    }
  }

  /** Shows are not counted: one `hide` after any history clears the
      indicator, and it stays clear until the next `show`. */
  lemma OneHideClears(s: State, before: seq<Op>, after: seq<Op>)
    requires forall i :: 0 <= i < |after| ==> !after[i].ShowOp?
    ensures Run(s, before + [HideOp] + after) == Initial
  {
    RunSplit(s, before + [HideOp], after);
    RunSplit(s, before, [HideOp]);
    HiddenStaysHidden(after);
  }
}

=== FILE: model_creation.dfy ===
/** The model creation page (`model-creation.component.ts`): the PDF-only
    file picker, the form check, and the create-then-upload pipeline with
    the outcomes of its two API calls given as inputs. */
module ModelCreation {
  import opened Base
  import FileSelect
  import Toasts
  import Loading

  datatype Form = Form(
    name: string,
    description: string,
    selectedFiles: seq<FileSelect.SelectedFile>,
    error: Option<string>,
    toasts: Toasts.Queue,
    loading: Loading.State)

  const FieldsRequired := "Please fill in all required fields"
  const FileRequired := "Please select at least one PDF file"
  const CreateFailedDefault := "Error creating model"
  const Created := "Model created successfully"

  /** `onFileSelect`: the shared PDF-only picker. */
  function SelectFiles(f: Form, files: Option<seq<FileSelect.SelectedFile>>): (r: Form)
    ensures files.None? ==> r == f
    ensures files.Some? ==> (r.selectedFiles, r.toasts) == FileSelect.Select(files, f.selectedFiles, f.toasts)
    ensures r.name == f.name && r.description == f.description && r.error == f.error && r.loading == f.loading
  {
    var (sel, toasts) := FileSelect.Select(files, f.selectedFiles, f.toasts);
    f.(selectedFiles := sel, toasts := toasts)
  }

  /** `validateForm()`: the fields are checked before the files, and a
      failure is reported both in `error` and as an error toast. */
  function ValidateForm(f: Form): (r: (Form, bool))
    ensures r.1 <==> f.name != "" && f.description != "" && |f.selectedFiles| > 0
    ensures r.1 ==> r.0 == f
    ensures (f.name == "" || f.description == "") ==>
      r.0 == f.(error := Some(FieldsRequired), toasts := Toasts.Error(f.toasts, FieldsRequired, None))
    ensures f.name != "" && f.description != "" && |f.selectedFiles| == 0 ==>
      r.0 == f.(error := Some(FileRequired), toasts := Toasts.Error(f.toasts, FileRequired, None))
  {
    if f.name == "" || f.description == "" then
      (f.(error := Some(FieldsRequired), toasts := Toasts.Error(f.toasts, FieldsRequired, None)), false)
    else if |f.selectedFiles| == 0 then
      (f.(error := Some(FileRequired), toasts := Toasts.Error(f.toasts, FileRequired, None)), false)
    else (f, true)
  }

  /** A request the pipeline sends. The upload is addressed by the model's
      name, not by the id the creation returned. */
  datatype Call =
    | CreateCall(name: string, description: string)
    | UploadCall(modelName: string, files: seq<FileSelect.SelectedFile>)

  /** How an API call ended: the value it emitted (only its `id` is read),
      or an error with its `error.error` and `message` texts. */
  datatype Reply = Answered(id: Option<string>) | Failed(apiError: Option<string>, message: Option<string>)

  /** `error.error?.error || error.message || 'Error creating model'`. */
  function ErrorText(apiError: Option<string>, message: Option<string>): (t: string)
    ensures t != ""
    ensures apiError.Some? && apiError.value != "" ==> t == apiError.value
    ensures (apiError.None? || apiError.value == "") && message.Some? && message.value != "" ==> t == message.value
    ensures (apiError.None? || apiError.value == "") && (message.None? || message.value == "") ==> t == CreateFailedDefault
  {
    if apiError.Some? && apiError.value != "" then apiError.value
    else if message.Some? && message.value != "" then message.value
    else CreateFailedDefault
  }

  /** What a submission did: the form afterwards, the requests sent in
      order, and where it navigated (the `id` of the last emitted value). */
  datatype Submission = Submission(form: Form, calls: seq<Call>, navigatedTo: Option<Option<string>>)

  /** `createModel()` from click to completion, given how the creation and
      the upload calls end. An invalid form returns before the indicator is
      shown and before any request; otherwise the creation is sent, then the
      upload of the selected files, and the indicator is hidden at the end
      whatever happened. */
  function CreateModel(f: Form, created: Reply, uploaded: Reply): (r: Submission)
    ensures !ValidateForm(f).1 ==> r == Submission(ValidateForm(f).0, [], None)
    ensures !ValidateForm(f).1 ==> r.form.loading == f.loading
    ensures ValidateForm(f).1 ==> !r.form.loading.isLoading && |r.calls| > 0 && r.calls[0] == CreateCall(f.name, f.description)
    ensures ValidateForm(f).1 && created.Failed? ==>
      && r.calls == [CreateCall(f.name, f.description)]
      && r.form.error == Some(ErrorText(created.apiError, created.message))
      && r.form.toasts == Toasts.Error(f.toasts, ErrorText(created.apiError, created.message), None)
      && r.navigatedTo.None?
    ensures ValidateForm(f).1 && created.Answered? ==>
      r.calls == [CreateCall(f.name, f.description), UploadCall(f.name, f.selectedFiles)]
    ensures ValidateForm(f).1 && created.Answered? && uploaded.Failed? ==>
      && r.form.error == Some(ErrorText(uploaded.apiError, uploaded.message))
      && r.form.toasts == Toasts.Error(f.toasts, ErrorText(uploaded.apiError, uploaded.message), None)
      && r.navigatedTo.None?
    ensures ValidateForm(f).1 && created.Answered? && uploaded.Answered? ==>
      && r.form.error.None?
      && r.form.toasts == Toasts.Success(f.toasts, Created, None)
      && r.navigatedTo == Some(uploaded.id)
  {
    var (checked, ok) := ValidateForm(f);
    if !ok then Submission(checked, [], None)
    else
      var started := f.(error := None, loading := Loading.Show(f.loading, Some("Creating model...")));
      match created
      case Failed(e, m) =>
        var msg := ErrorText(e, m);
        Submission(started.(error := Some(msg), toasts := Toasts.Error(f.toasts, msg, None), loading := Loading.Hide(started.loading)),
                   [CreateCall(f.name, f.description)], None)
      case Answered(createdId) =>
        if |f.selectedFiles| > 0 then
          var uploading := started.(loading := Loading.SetMessage(started.loading, "Uploading files..."));
          var calls := [CreateCall(f.name, f.description), UploadCall(f.name, f.selectedFiles)];
          match uploaded
          case Failed(e, m) =>
            var msg := ErrorText(e, m);
            Submission(uploading.(error := Some(msg), toasts := Toasts.Error(f.toasts, msg, None), loading := Loading.Hide(uploading.loading)),
                       calls, None)
          case Answered(uploadedId) =>
            Submission(uploading.(toasts := Toasts.Success(f.toasts, Created, None), loading := Loading.Hide(uploading.loading)),
                       calls, Some(uploadedId))
        else
          Submission(started.(toasts := Toasts.Success(f.toasts, Created, None), loading := Loading.Hide(started.loading)),
                     [CreateCall(f.name, f.description)], Some(createdId))
  }

  /** Every submission, valid or not, adds exactly one toast. */
  lemma OneToastPerSubmission(f: Form, created: Reply, uploaded: Reply)
    ensures |CreateModel(f, created, uploaded).form.toasts.toasts| == |f.toasts.toasts| + 1
    ensures CreateModel(f, created, uploaded).form.toasts.nextId == f.toasts.nextId + 1
  {
  }

  /** A valid form always reaches the upload step once the creation
      answers: validation leaves no way to skip it. */
  lemma ValidFormAlwaysUploads(f: Form, created: Reply, uploaded: Reply)
    requires ValidateForm(f).1 && created.Answered?
    ensures UploadCall(f.name, f.selectedFiles) in CreateModel(f, created, uploaded).calls
  {
    assert CreateModel(f, created, uploaded).calls[1] == UploadCall(f.name, f.selectedFiles);
  }
}

=== FILE: model_detail.dfy ===
/** The model detail page (`model-detail.component.ts`) as a sequential
    state machine. The 5-second interval, the HTTP calls and the clock become
    explicit events: `Tick` (the interval fires), `PollResponse(r)` and
    `PollFailed` (the embedding-status request answers), and one event per
    user operation carrying the outcome of its API calls. */
module ModelDetail {
  import opened Base
  import opened Types
  import FileSelect
  import Toasts
  import Loading

  /** The component's state. `polling` is whether the interval subscription
      is alive; `redirected` records the navigation back to the list. */
  datatype Detail = Detail(
    model: Option<AIModel>,
    polling: bool,
    error: Option<string>,
    selectedFiles: seq<FileSelect.SelectedFile>,
    toasts: Toasts.Queue,
    loading: Loading.State,
    redirected: bool)

  /** The body of `GET /models/{id}/embedding-status`. */
  datatype StatusResponse = StatusResponse(status: EmbeddingStatus, progress: Option<int>, error: Option<string>)

  /** `GET /models/{id}` as the component receives it: any field may be missing. */
  datatype ApiModel = ApiModel(
    id: string,
    name: string,
    description: string,
    status: Option<ModelStatus>,
    files: Option<seq<ModelFile>>,
    trainingLogs: Option<seq<string>>,
    embeddingStatus: Option<EmbeddingStatus>,
    embeddingProgress: Option<int>)

  /** How `loadModel`'s request ended: a body, an empty body, or an error with
      its message (if any) and HTTP status. */
  datatype LoadOutcome = Loaded(body: ApiModel) | NoData | LoadFailed(message: Option<string>, httpStatus: int)

  /** How `triggerTraining`'s request ended: a body (truthy or not) or an error. */
  datatype TrainOutcome = TrainAnswered(truthy: bool) | TrainFailed(message: Option<string>)

  /** How the API calls of an operation ended. */
  datatype CallOutcome = CallOk | CallFailed(message: Option<string>)

  /** A component before `ngOnInit`. */
  function Fresh(toasts: Toasts.Queue): Detail
  {
    Detail(None, false, None, [], toasts, Loading.Initial, false)
  }

  /** `ngOnInit`: with a route id, loading is started (as a separate `Load`
      event) and the interval begins; without one, an error is reported. */
  function Init(d: Detail, routeId: Option<string>): (r: Detail)
    ensures routeId.Some? ==> r.polling && r.toasts == d.toasts && r.model == d.model
    ensures routeId.None? ==>
      && r.polling == d.polling
      && r.error == Some("Model ID not found")
      && r.toasts == Toasts.Error(d.toasts, "Model ID not found", None)
  {
    match routeId
    case Some(_) => d.(polling := true)
    case None => d.(error := Some("Model ID not found"), toasts := Toasts.Error(d.toasts, "Model ID not found", None))
  }

  /** The interval's guard: a status request is issued only while the interval
      runs, a model is loaded and its embedding is `Processing`. */
  function Tick(d: Detail): (issued: bool)
    ensures issued <==> d.polling && d.model.Some? && d.model.value.embeddingStatus == Some(Processing)
  {
    d.polling && match d.model
      case Some(m) => m.embeddingStatus == Some(Processing)
      case None => false
  }

  /** `'Document embedding failed: ' + status.error` prints `undefined` for a
      missing error text. */
  function EmbeddingFailedMessage(error: Option<string>): string
  {
    "Document embedding failed: " + match error { case Some(e) => e case None => "undefined" }
  }

  /** The `next` handler of a status request. It applies whenever it arrives,
      even after the interval was cancelled, since unsubscribing the interval
      does not cancel a request in flight. */
  function PollResponse(d: Detail, resp: StatusResponse): (r: Detail)
    ensures d.model.None? ==> r == d
    ensures d.model.Some? ==>
      && r.model.Some?
      && r.model.value == d.model.value.(embeddingStatus := Some(resp.status), embeddingProgress := resp.progress)
      && r.error == d.error && r.selectedFiles == d.selectedFiles && r.loading == d.loading
    ensures d.model.Some? && resp.status == Completed ==>
      !r.polling && r.toasts == Toasts.Success(d.toasts, "Document embedding completed", None)
    ensures d.model.Some? && resp.status == EmbeddingError ==>
      !r.polling && r.toasts == Toasts.Error(d.toasts, EmbeddingFailedMessage(resp.error), None)
    ensures resp.status != Completed && resp.status != EmbeddingError ==>
      r.polling == d.polling && r.toasts == d.toasts
  {
    match d.model
    case None => d
    case Some(m) =>
      var d1 := d.(model := Some(m.(embeddingStatus := Some(resp.status), embeddingProgress := resp.progress)));
      match resp.status
      case Completed => d1.(toasts := Toasts.Success(d.toasts, "Document embedding completed", None), polling := false)
      case EmbeddingError => d1.(toasts := Toasts.Error(d.toasts, EmbeddingFailedMessage(resp.error), None), polling := false)
      case _ => d1
  }

  /** The mapping in `loadModel`: a missing status becomes Pending, missing
      files and logs become empty; everything else is copied. */
  function ToModel(body: ApiModel): (m: AIModel)
    ensures m.id == body.id && m.name == body.name && m.description == body.description
    ensures m.status == (if body.status.Some? then body.status.value else Pending)
    ensures m.files == (if body.files.Some? then body.files.value else [])
    ensures m.trainingLogs.Some?
    ensures m.trainingLogs.value == (if body.trainingLogs.Some? then body.trainingLogs.value else [])
    ensures m.embeddingStatus == body.embeddingStatus && m.embeddingProgress == body.embeddingProgress
  {
    AIModel(
      body.id, body.name, body.description,
      match body.status { case Some(s) => s case None => Pending },
      match body.files { case Some(f) => f case None => [] },
      Some(match body.trainingLogs { case Some(l) => l case None => [] }),
      body.embeddingStatus, body.embeddingProgress)
  }

  /** `message || fallback`, where `message` is the first truthy message the
      caller's own chain yields: `error.error?.message || error.message` for
      most handlers, `error.error?.message` alone for `triggerTraining`. */
  function MessageOr(message: Option<string>, fallback: string): string
  {
    match message
    case Some(m) => if m != "" then m else fallback
    case None => fallback
  }

  /** `loadModel`: on success the model is replaced by the mapped body; on
      failure the old model stays, the error is shown, and a 404 sends the
      user back to the list. The indicator is hidden in every case. */
  function LoadModel(d: Detail, outcome: LoadOutcome): (r: Detail)
    ensures !r.loading.isLoading
    ensures r.polling == d.polling
    ensures outcome.Loaded? ==> r.model == Some(ToModel(outcome.body)) && r.error.None? && r.toasts == d.toasts
    ensures !outcome.Loaded? ==>
      && r.model == d.model && r.error.Some?
      && r.toasts == Toasts.Error(d.toasts, r.error.value, None)
    ensures outcome == NoData ==> r.error == Some("No data received from API")
    ensures r.redirected <==> d.redirected || (outcome.LoadFailed? && outcome.httpStatus == 404)
  {
    var shown := d.(error := None, loading := Loading.Show(d.loading, Some("Loading model details...")));
    var after := match outcome
      case Loaded(body) => shown.(model := Some(ToModel(body)))
      case NoData =>
        var msg := "No data received from API";
        shown.(error := Some(msg), toasts := Toasts.Error(d.toasts, msg, None))
      case LoadFailed(message, status) =>
        var msg := MessageOr(message, "Error loading model");
        shown.(error := Some(msg), toasts := Toasts.Error(d.toasts, msg, None),
               redirected := d.redirected || status == 404);
    after.(loading := Loading.Hide(after.loading))
  }

  function TrainingStartedLine(stamp: string): string { "Training started at " + stamp }
  function TrainingFailedLine(stamp: string): string { "Training failed at " + stamp }

  /** The logs a model has so far (`trainingLogs || []`). */
  function LogsOf(m: AIModel): seq<string>
  {
    match m.trainingLogs { case Some(l) => l case None => [] }
  }

  /** `triggerTraining`; `stamp` is `new Date().toLocaleString()`. A truthy
      answer moves the model to Training and appends one line; a failure moves
      it to Error and appends two; the earlier lines always stay in front. The
      `TrainFailed` message is `error.error?.message` alone: this handler does
      not fall back to `error.message`. */
  function TriggerTraining(d: Detail, outcome: TrainOutcome, stamp: string): (r: Detail)
    ensures d.model.None? ==> r == d
    ensures d.model.Some? ==> r.model.Some? && r.polling == d.polling && !r.loading.isLoading
    ensures d.model.Some? && outcome == TrainAnswered(true) ==>
      && r.model.value.status == Training
      && LogsOf(r.model.value) == LogsOf(d.model.value) + [TrainingStartedLine(stamp)]
      && r.error.None?
      && r.toasts == Toasts.Success(d.toasts, "Training initiated successfully", None)
    ensures d.model.Some? && outcome == TrainAnswered(false) ==>
      r.model == d.model && r.error.None? && r.toasts == d.toasts
    ensures d.model.Some? && outcome.TrainFailed? ==>
      var msg := MessageOr(outcome.message, "Error initiating training");
      && r.model.value.status == Error
      && LogsOf(r.model.value) == LogsOf(d.model.value) + [TrainingFailedLine(stamp), "Error: " + msg]
      && r.error == Some(msg)
      && r.toasts == Toasts.Error(d.toasts, msg, None)
    ensures d.model.Some? ==>
      r.model.value.(status := d.model.value.status, trainingLogs := d.model.value.trainingLogs) == d.model.value
  {
    match d.model
    case None => d
    case Some(m) =>
      var shown := d.(error := None, loading := Loading.Show(d.loading, Some("Initiating model training...")));
      var after := match outcome
        case TrainAnswered(truthy) =>
          if truthy then
            shown.(model := Some(m.(status := Training, trainingLogs := Some(LogsOf(m) + [TrainingStartedLine(stamp)]))),
                   toasts := Toasts.Success(d.toasts, "Training initiated successfully", None))
          else shown
        case TrainFailed(message) =>
          var msg := MessageOr(message, "Error initiating training");
          shown.(error := Some(msg),
                 model := Some(m.(status := Error, trainingLogs := Some(LogsOf(m) + [TrainingFailedLine(stamp), "Error: " + msg]))),
                 toasts := Toasts.Error(d.toasts, msg, None));
      after.(loading := Loading.Hide(after.loading))
  }

  /** `onFileSelect`, shared with the creation page: only the selection and
      the toasts change, as the shared picker says. */
  function SelectFiles(d: Detail, files: Option<seq<FileSelect.SelectedFile>>): (r: Detail)
    ensures files.None? ==> r == d
    ensures files.Some? ==> (r.selectedFiles, r.toasts) == FileSelect.Select(files, d.selectedFiles, d.toasts)
    ensures r.(selectedFiles := d.selectedFiles, toasts := d.toasts) == d
  {
    var (selected, toasts) := FileSelect.Select(files, d.selectedFiles, d.toasts);
    d.(selectedFiles := selected, toasts := toasts)
  }

  /** `uploadFiles`: nothing happens without a model or a selection; otherwise
      the upload and re-embed calls run and the selection is cleared on
      success. Returns the new state and whether the upload call was issued.
      The reload it triggers is a separate `Load` event. */
  function UploadFiles(d: Detail, outcome: CallOutcome): (r: (Detail, bool))
    ensures r.1 <==> d.model.Some? && |d.selectedFiles| > 0
    ensures !r.1 ==> r.0 == d
    ensures r.0.polling == d.polling && r.0.model == d.model
    ensures r.1 ==> !r.0.loading.isLoading
    ensures r.1 && outcome.CallOk? ==>
      && r.0.selectedFiles == []
      && r.0.toasts == Toasts.Success(d.toasts, "Files uploaded successfully. Document embedding started.", None)
    ensures r.1 && outcome.CallFailed? ==>
      && r.0.selectedFiles == d.selectedFiles
      && r.0.error == Some(MessageOr(outcome.message, "Error uploading files"))
      && r.0.toasts == Toasts.Error(d.toasts, MessageOr(outcome.message, "Error uploading files"), None)
  {
    if d.model.None? || |d.selectedFiles| == 0 then (d, false)
    else
      var shown := d.(error := None, loading := Loading.Show(d.loading, Some("Uploading files...")));
      var after := match outcome
        case CallOk =>
          var s1 := shown.(loading := Loading.SetMessage(shown.loading, "Starting document embedding..."));
          s1.(toasts := Toasts.Success(d.toasts, "Files uploaded successfully. Document embedding started.", None),
              selectedFiles := [])
        case CallFailed(message) =>
          var msg := MessageOr(message, "Error uploading files");
          shown.(error := Some(msg), toasts := Toasts.Error(d.toasts, msg, None));
      (after.(loading := Loading.Hide(after.loading)), true)
  }

  /** `reembedModel`: starts re-embedding on the server; the interval is not
      touched. `CallFailed(message)` carries `error.error?.message ||
      error.message`. On success the reload it starts is not awaited: its
      synchronous start clears `error` and shows the indicator before the
      `finally` hides it, and the rest of the reload is a separate `Load`
      event. */
  function ReembedModel(d: Detail, outcome: CallOutcome): (r: Detail)
    ensures d.model.None? ==> r == d
    ensures r.polling == d.polling && r.model == d.model && r.selectedFiles == d.selectedFiles
    ensures d.model.Some? ==> !r.loading.isLoading
    ensures d.model.Some? && outcome.CallOk? ==>
      && r.error.None?
      && r.toasts == Toasts.Success(d.toasts, "Re-embedding process started", None)
    ensures d.model.Some? && outcome.CallFailed? ==>
      && r.error == Some(MessageOr(outcome.message, "Error starting re-embedding process"))
      && r.toasts == Toasts.Error(d.toasts, MessageOr(outcome.message, "Error starting re-embedding process"), None)
  {
    match d.model
    case None => d
    case Some(_) =>
      var shown := d.(loading := Loading.Show(d.loading, Some("Starting re-embedding process...")));
      var after := match outcome
        case CallOk =>
          var reloading := shown.(error := None, loading := Loading.Show(shown.loading, Some("Loading model details...")));
          reloading.(toasts := Toasts.Success(d.toasts, "Re-embedding process started", None))
        case CallFailed(message) =>
          var msg := MessageOr(message, "Error starting re-embedding process");
          shown.(error := Some(msg), toasts := Toasts.Error(d.toasts, msg, None));
      after.(loading := Loading.Hide(after.loading))
  }

  /** Everything that can happen on the page after `ngOnInit`. */
  datatype Event =
    | TickEv
    | PollResponseEv(resp: StatusResponse)
    | PollFailedEv
    | LoadEv(load: LoadOutcome)
    | TrainEv(train: TrainOutcome, stamp: string)
    | SelectEv(files: Option<seq<FileSelect.SelectedFile>>)
    | UploadEv(upload: CallOutcome)
    | ReembedEv(reembed: CallOutcome)

  /** One event; returns the new state and the number of status requests it
      issued. A failed status request is only logged. */
  function Step(d: Detail, e: Event): (Detail, nat)
  {
    match e
    case TickEv => (d, if Tick(d) then 1 else 0)
    case PollResponseEv(resp) => (PollResponse(d, resp), 0)
    case PollFailedEv => (d, 0)
    case LoadEv(o) => (LoadModel(d, o), 0)
    case TrainEv(o, stamp) => (TriggerTraining(d, o, stamp), 0)
    case SelectEv(files) => (SelectFiles(d, files), 0)
    case UploadEv(o) => (UploadFiles(d, o).0, 0)
    case ReembedEv(o) => (ReembedModel(d, o), 0)
  }

  /** A history of events: the final state and the status requests issued. */
  function Run(d: Detail, events: seq<Event>): (Detail, nat)
    decreases |events|
  {
    if |events| == 0 then (d, 0)
    else
      var (d1, n1) := Step(d, events[0]);
      var (d2, n2) := Run(d1, events[1..]);
      (d2, n1 + n2)
  }

  /** Polling is started only in `ngOnInit`: once it has stopped, no event of
      the page (reloads, re-embedding and uploads included) restarts it, and
      no further status request is ever issued. */
  lemma {:induction false} StoppedPollingStaysStopped(d: Detail, events: seq<Event>)
    requires !d.polling
    ensures !Run(d, events).0.polling
    ensures Run(d, events).1 == 0
    decreases |events|
  {
    if |events| > 0 {
      StoppedPollingStaysStopped(Step(d, events[0]).0, events[1..]);
    }
  }

  /** A terminal response ends monitoring for good: after it, whatever
      happens, the page issues no status request. */
  lemma TerminalResponseEndsPolling(d: Detail, resp: StatusResponse, later: seq<Event>)
    requires d.model.Some?
    requires resp.status == Completed || resp.status == EmbeddingError
    ensures Run(PollResponse(d, resp), later).1 == 0
  {
    StoppedPollingStaysStopped(PollResponse(d, resp), later);
  }

  /** Transient failures and non-terminal responses keep the interval alive. */
  lemma NonTerminalKeepsPolling(d: Detail, e: Event)
    requires e.PollFailedEv? || (e.PollResponseEv? && e.resp.status != Completed && e.resp.status != EmbeddingError)
    ensures Step(d, e).0.polling == d.polling
    ensures Step(d, e).0.toasts == d.toasts
  {
  }
}

=== FILE: model_list.dfy ===
/** The model list page (`model-list.component.ts`): the push-update merge
    applied to the `models` and `filteredModels` arrays, the search/status
    filter that derives `filteredModels` from `models`, and the pagination
    guard. Each array holds its own copies of the records; a merge rewrites
    the first entry with the update's id in each array independently. */
module ModelList {
  import opened Base
  import opened Text
  import opened Types
  import Toasts

  /** One frame of the push channel. */
  datatype ModelUpdate = ModelUpdate(
    modelId: string,
    status: ModelStatus,
    trainingLogs: Option<seq<string>>,
    progress: Option<int>)

  /** `statusFilter: ModelStatus | 'all'`. */
  datatype StatusFilter = All | Only(status: ModelStatus)

  /** The component's state. */
  datatype View = View(
    models: seq<AIModel>,
    filteredModels: seq<AIModel>,
    searchTerm: string,
    statusFilter: StatusFilter,
    currentPage: int,
    totalModels: nat,
    toasts: Toasts.Queue)

  const PageSize := 10

  /** `findIndex(m => m.id === id)`: the first position holding `id`. */
  function FindIndex(a: seq<AIModel>, id: string): (r: Option<nat>)
    ensures r.None? <==> forall i :: 0 <= i < |a| ==> a[i].id != id
    ensures r.Some? ==> r.value < |a| && a[r.value].id == id
    ensures r.Some? ==> forall j :: 0 <= j < r.value ==> a[j].id != id
    decreases |a|
  {
    if |a| == 0 then None
    else if a[0].id == id then Some(0)
    else match FindIndex(a[1..], id)
      case None => None
      case Some(k) => Some(k + 1)
  }

  /** The spread `{...m, status: u.status, trainingLogs: u.trainingLogs || m.trainingLogs}`.
      An empty log array is truthy in TypeScript, so any present log list wins. */
  function Merge(m: AIModel, u: ModelUpdate): AIModel
  {
    m.(status := u.status, trainingLogs := if u.trainingLogs.Some? then u.trainingLogs else m.trainingLogs)
  }

  /** A toast the merge asks for. */
  datatype Notice = Notice(kind: Toasts.ToastType, message: string)

  /** The notification rule: only a real status change, and only into Ready or
      Error, is announced. */
  function ChangeNotice(previous: ModelStatus, u: ModelUpdate, name: string): (r: Option<Notice>)
    ensures r.Some? <==> previous != u.status && (u.status == Ready || u.status == Error)
    ensures r.Some? && u.status == Ready ==>
      r.value == Notice(Toasts.SuccessToast, "Model \"" + name + "\" training completed")
    ensures r.Some? && u.status == Error ==>
      r.value == Notice(Toasts.ErrorToast, "Model \"" + name + "\" training failed")
  {
    if previous == u.status then None
    else match u.status
      case Ready => Some(Notice(Toasts.SuccessToast, "Model \"" + name + "\" training completed"))
      case Error => Some(Notice(Toasts.ErrorToast, "Model \"" + name + "\" training failed"))
      case _ => None
  }

  /** The `updateModel` closure applied to one array: the first entry with the
      update's id takes the new status (and the logs, when the update carries
      some) and keeps every other field; nothing else in the array moves. */
  function UpdateModel(a: seq<AIModel>, u: ModelUpdate): (r: (seq<AIModel>, Option<Notice>))
    ensures |r.0| == |a|
    ensures forall j :: 0 <= j < |a| ==> r.0[j].id == a[j].id
    ensures FindIndex(a, u.modelId).None? ==> r.0 == a && r.1.None?
    ensures FindIndex(a, u.modelId).Some? ==>
      var i := FindIndex(a, u.modelId).value;
      && r.0[i].status == u.status
      && r.0[i].name == a[i].name
      && r.0[i].description == a[i].description
      && r.0[i].files == a[i].files
      && r.0[i].embeddingStatus == a[i].embeddingStatus
      && r.0[i].embeddingProgress == a[i].embeddingProgress
      && r.0[i].trainingLogs == (if u.trainingLogs.Some? then u.trainingLogs else a[i].trainingLogs)
      && (forall j :: 0 <= j < |a| && j != i ==> r.0[j] == a[j])
      && r.1 == ChangeNotice(a[i].status, u, a[i].name)
  {
    match FindIndex(a, u.modelId)
    case None => (a, None)
    case Some(i) => (a[i := Merge(a[i], u)], ChangeNotice(a[i].status, u, a[i].name))
  }

  /** Hands a notice to the toast service: no notice, no toast; otherwise
      one toast of the notice's kind and text is appended after the
      unchanged earlier ones, with the next id. */
  function Emit(q: Toasts.Queue, n: Option<Notice>): (r: Toasts.Queue)
    ensures n.None? ==> r == q
    ensures n.Some? ==>
      && |r.toasts| == |q.toasts| + 1
      && r.toasts[..|q.toasts|] == q.toasts
      && r.toasts[|q.toasts|].kind == n.value.kind
      && r.toasts[|q.toasts|].message == n.value.message
      && r.toasts[|q.toasts|].id == q.nextId
      && r.nextId == q.nextId + 1
  {
    match n
    case None => q
    case Some(Notice(k, m)) => Toasts.Show(q, m, k, None)
  }

  /** The toasts added after `before` are the notices of the `models` pass
      and then of the `filteredModels` pass, each by kind and text. */
  ghost predicate Announces(before: seq<Toasts.Toast>, after: seq<Toasts.Toast>, n1: Option<Notice>, n2: Option<Notice>)
  {
    var k := |before|;
    var j := if n1.Some? then k + 1 else k;
    && |after| == j + (if n2.Some? then 1 else 0)
    && (n1.Some? ==> after[k].kind == n1.value.kind && after[k].message == n1.value.message)
    && (n2.Some? ==> after[j].kind == n2.value.kind && after[j].message == n2.value.message)
  }

  /** The `next` handler of the push subscription: `models` first, then
      `filteredModels`, each possibly emitting its own toast. */
  function OnUpdate(v: View, u: ModelUpdate): (r: View)
    ensures r.(models := v.models, filteredModels := v.filteredModels, toasts := v.toasts) == v
    ensures r.models == UpdateModel(v.models, u).0 && r.filteredModels == UpdateModel(v.filteredModels, u).0
    ensures |r.toasts.toasts| == |v.toasts.toasts|
      + (if UpdateModel(v.models, u).1.Some? then 1 else 0)
      + (if UpdateModel(v.filteredModels, u).1.Some? then 1 else 0)
    ensures FindIndex(v.models, u.modelId).None? && FindIndex(v.filteredModels, u.modelId).None? ==> r == v
    ensures r.toasts.toasts[..|v.toasts.toasts|] == v.toasts.toasts
    ensures Announces(v.toasts.toasts, r.toasts.toasts, UpdateModel(v.models, u).1, UpdateModel(v.filteredModels, u).1)
  {
    var n1 := UpdateModel(v.models, u).1;
    var q1 := Emit(v.toasts, n1);
    var q2 := Emit(q1, UpdateModel(v.filteredModels, u).1);
    assert q2.toasts[..|q1.toasts|] == q1.toasts;
    assert q2.toasts[..|v.toasts.toasts|] == q1.toasts[..|v.toasts.toasts|];
    var (models, n1) := UpdateModel(v.models, u);
    var (filtered, n2) := UpdateModel(v.filteredModels, u);
    v.(models := models, filteredModels := filtered, toasts := Emit(Emit(v.toasts, n1), n2))
  }

  /** Arrays with the same ids position by position find the same index. */
  lemma {:induction false} FindIndexSameIds(a: seq<AIModel>, b: seq<AIModel>, id: string)
    requires |a| == |b|
    requires forall j :: 0 <= j < |a| ==> a[j].id == b[j].id
    ensures FindIndex(a, id) == FindIndex(b, id)
    decreases |a|
  {
    if |a| > 0 {
      FindIndexSameIds(a[1..], b[1..], id);
    }
  }

  /** A second application of the same update changes nothing and asks for
      no toast, since the status is already the update's. */
  lemma UpdateModelIdempotent(a: seq<AIModel>, u: ModelUpdate)
    ensures UpdateModel(UpdateModel(a, u).0, u) == (UpdateModel(a, u).0, None)
  {
    var a1 := UpdateModel(a, u).0;
    FindIndexSameIds(a, a1, u.modelId);
    match FindIndex(a, u.modelId)
    case None =>
    case Some(i) =>
      assert a1[i] == Merge(a[i], u);
      assert Merge(a1[i], u) == a1[i];
      assert a1[i := a1[i]] == a1;
  }

  /** Delivering the same frame twice (push and a trailing duplicate) gives
      the same arrays and no extra toast. */
  lemma OnUpdateIdempotent(v: View, u: ModelUpdate)
    ensures OnUpdate(OnUpdate(v, u), u) == OnUpdate(v, u)
  {
    UpdateModelIdempotent(v.models, u);
    UpdateModelIdempotent(v.filteredModels, u);
  }

  /** Once a frame is merged, both arrays agree with it wherever they hold
      the model, so they agree with each other. */
  lemma OnUpdateAgreesAcrossArrays(v: View, u: ModelUpdate)
    ensures var w := OnUpdate(v, u);
      FindIndex(w.models, u.modelId).Some? && FindIndex(w.filteredModels, u.modelId).Some? ==>
        var i := FindIndex(w.models, u.modelId).value;
        var k := FindIndex(w.filteredModels, u.modelId).value;
        && w.models[i].status == w.filteredModels[k].status == u.status
        && (u.trainingLogs.Some? ==> w.models[i].trainingLogs == w.filteredModels[k].trainingLogs)
  {
    var w := OnUpdate(v, u);
    FindIndexSameIds(v.models, w.models, u.modelId);
    FindIndexSameIds(v.filteredModels, w.filteredModels, u.modelId);
  }

  /** A model held in both arrays whose status really changes to Ready gives
      two success toasts, one per array; a change to Pending or Training gives
      none. */
  lemma OnUpdateToastPerArray(v: View, u: ModelUpdate)
    requires FindIndex(v.models, u.modelId).Some? && FindIndex(v.filteredModels, u.modelId).Some?
    requires v.models[FindIndex(v.models, u.modelId).value].status != u.status
    requires v.filteredModels[FindIndex(v.filteredModels, u.modelId).value].status != u.status
    ensures u.status == Ready ==>
      var w := OnUpdate(v, u);
      && |w.toasts.toasts| == |v.toasts.toasts| + 2
      && w.toasts.toasts[|v.toasts.toasts|].kind == Toasts.SuccessToast
      && w.toasts.toasts[|v.toasts.toasts| + 1].kind == Toasts.SuccessToast
    ensures u.status == Pending || u.status == Training ==> OnUpdate(v, u).toasts == v.toasts
  {
  }

  /** `lowercased name or description includes the lowercased term`. */
  predicate SearchHit(m: AIModel, term: string)
  {
    Contains(Lower(m.name), Lower(term)) || Contains(Lower(m.description), Lower(term))
  }

  /** The statement of which models the list shows. */
  predicate Survives(m: AIModel, term: string, filter: StatusFilter)
  {
    && (term == "" || SearchHit(m, term))
    && (filter.All? || m.status == filter.status)
  }

  /** The search pass's predicate. */
  function SearchPass(term: string): AIModel -> bool
  {
    (m: AIModel) => SearchHit(m, term)
  }

  /** The status pass's predicate. */
  function StatusPass(status: ModelStatus): AIModel -> bool
  {
    (m: AIModel) => m.status == status
  }

  /** `applyFilters`: the search pass (skipped for an empty term), then the
      status pass (skipped for `'all'`). */
  function ApplyFilters(models: seq<AIModel>, term: string, filter: StatusFilter): (r: seq<AIModel>)
    ensures Subseq(r, models)
    ensures forall m :: m in r <==> m in models && Survives(m, term, filter)
    ensures term == "" && filter.All? ==> r == models
  {
    var searched := if term != "" then Filter(models, SearchPass(term)) else models;
    SubseqReflexive(models);
    if filter.All? then searched
    else
      var r := Filter(searched, StatusPass(filter.status));
      SubseqTransitive(r, searched, models);
      r
  }

  /** The predicate the list's filtering amounts to. */
  function Keep(term: string, filter: StatusFilter): AIModel -> bool
  {
    (m: AIModel) => Survives(m, term, filter)
  }

  /** The search pass accepts exactly the models whose text matches the term. */
  function TermStage(term: string): AIModel -> bool
  {
    (m: AIModel) => term == "" || SearchHit(m, term)
  }

  lemma SearchedIsFilter(models: seq<AIModel>, term: string)
    ensures (if term != "" then Filter(models, SearchPass(term)) else models) == Filter(models, TermStage(term))
  {
    if term != "" {
      FilterSamePredicate(models, SearchPass(term), TermStage(term));
    } else {
      FilterKeepsAllIff(models, TermStage(term));
    }
  }

  /** The two passes are one filter by `Survives`: the list shows exactly the
      surviving models, each as often as `models` holds it, in order. */
  lemma ApplyFiltersIsOneFilter(models: seq<AIModel>, term: string, filter: StatusFilter)
    ensures ApplyFilters(models, term, filter) == Filter(models, Keep(term, filter))
  {
    SearchedIsFilter(models, term);
    var searched := Filter(models, TermStage(term));
    assert ApplyFilters(models, term, filter)
        == if filter.All? then searched else Filter(searched, StatusPass(filter.status));
    if filter.All? {
      assert forall m :: TermStage(term)(m) == Keep(term, filter)(m);
      FilterSamePredicate(models, TermStage(term), Keep(term, filter));
    } else {
      StatusStage(models, term, filter.status);
    }
  }

  lemma StatusStage(models: seq<AIModel>, term: string, status: ModelStatus)
    ensures Filter(Filter(models, TermStage(term)), StatusPass(status)) == Filter(models, Keep(term, Only(status)))
  {
    var both := Both(TermStage(term), StatusPass(status));
    FilterFilter(models, TermStage(term), StatusPass(status));
    assert forall m :: both(m) == Keep(term, Only(status))(m);
    FilterSamePredicate(models, both, Keep(term, Only(status)));
  }

  /** The view operation: only `filteredModels` changes, and it becomes the
      surviving models in order, each as often as `models` holds it. */
  function RefreshFilter(v: View): (r: View)
    ensures r == v.(filteredModels := r.filteredModels)
    ensures r.filteredModels == Filter(v.models, Keep(v.searchTerm, v.statusFilter))
    ensures forall m :: m in r.filteredModels <==> m in v.models && Survives(m, v.searchTerm, v.statusFilter)
  {
    ApplyFiltersIsOneFilter(v.models, v.searchTerm, v.statusFilter);
    v.(filteredModels := ApplyFilters(v.models, v.searchTerm, v.statusFilter))
  }

  /** `Math.ceil(totalModels / pageSize)` for a non-negative total. */
  function PageCount(total: nat): nat
  {
    (total + PageSize - 1) / PageSize
  }

  /** `onPageChange(page)`: returns the new view and whether a reload starts.
      A page is accepted exactly when it exists and holds at least one model. */
  function OnPageChange(v: View, page: int): (r: (View, bool))
    ensures r.1 <==> 1 <= page && (page - 1) * PageSize < v.totalModels
    ensures !r.1 ==> r.0 == v
    ensures r.1 ==> r.0 == v.(currentPage := page)
    ensures v.totalModels == 0 ==> !r.1
  {
    if page < 1 || page > PageCount(v.totalModels) then (v, false)
    else (v.(currentPage := page), true)
  }
}

=== FILE: routes.dfy ===
/** The request checks of the Flask routes (`app.py`): the upload file-name
    filter `allowed_file` and the ordered 400 answers of the create, upload,
    file-update and ask routes. A route either rejects the request with a
    status and an error text or passes the checked arguments on to the
    service it fronts; the services themselves are not part of this model. */
module Routes {
  import opened Base
  import opened Text

  /** `Config.ALLOWED_EXTENSIONS`. */
  const AllowedExtensions: set<string> := {"pdf", "docx", "txt", "xlsx", "xml"}

  /** No `'.'` occurs in `s` after position `i`. */
  predicate NoDotAfter(s: string, i: int)
  {
    forall j :: 0 <= j < |s| && i < j ==> s[j] != '.'
  }

  /** The position of the last `'.'` in `s`, if any. */
  function LastDot(s: string): (r: Option<nat>)
    ensures r.Some? ==> r.value < |s| && s[r.value] == '.' && NoDotAfter(s, r.value)
    ensures r.None? ==> NoDotAfter(s, -1)
    decreases |s|
  {
    if |s| == 0 then None
    else if s[|s| - 1] == '.' then Some(|s| - 1)
    else
      var r := LastDot(s[..|s| - 1]);
      assert forall j :: 0 <= j < |s| - 1 ==> s[..|s| - 1][j] == s[j];
      r
  }

  /** Position `i` holds the last `'.'` of `s`. */
  predicate LastDotAt(s: string, i: int)
  {
    0 <= i < |s| && s[i] == '.' && NoDotAfter(s, i)
  }

  /** An extension is accepted in any letter case. */
  predicate AllowedExtension(ext: string)
  {
    Lower(ext) in AllowedExtensions
  }

  /** `allowed_file(filename)`: the text after the last dot, lower-cased, is
      an allowed extension. Stated without the search: a dot is present and
      what follows the last one is an allowed extension in any letter case. */
  function AllowedFile(filename: string): (r: bool)
    ensures r <==> exists i :: LastDotAt(filename, i) && AllowedExtension(filename[i + 1..])
  {
    match LastDot(filename)
    case None => false
    case Some(i) =>
      assert forall j :: LastDotAt(filename, j) ==> j == i by {
        forall j | LastDotAt(filename, j) ensures j == i {
          LastDotIs(filename, j);
        }
      }
      assert LastDotAt(filename, i);
      AllowedExtension(filename[i + 1..])
  }

  /** The last dot is the dot with no dot after it. */
  lemma LastDotIs(s: string, i: int)
    requires LastDotAt(s, i)
    ensures LastDot(s) == Some(i)
  {
    var k := LastDot(s);
    assert k.Some?;
    assert k.value == i;
  }

  /** Only the last extension counts, in any case. */
  lemma AllowedFileExamples()
    ensures AllowedFile("A.PDF")
    ensures AllowedFile("x.exe.pdf")
    ensures !AllowedFile("x.pdf.exe")
    ensures !AllowedFile("name.")
    ensures !AllowedFile("pdf")
  {
    LastDotIs("A.PDF", 1);
    assert "A.PDF"[2..] == "PDF";
    assert Lower("PDF") == "pdf";
    LastDotIs("x.exe.pdf", 5);
    assert "x.exe.pdf"[6..] == "pdf";
    assert Lower("pdf") == "pdf";
    LastDotIs("x.pdf.exe", 5);
    assert "x.pdf.exe"[6..] == "exe";
    assert Lower("exe") == "exe";
    LastDotIs("name.", 4);
    assert "name."[5..] == "";
    assert LastDot("pdf") == None;
  }

  /** What a route answers without reaching its service, or the arguments it
      hands the service. */
  datatype Check<A> = Reject(code: int, error: string) | Forward(args: A)

  /** A JSON request body: `None` when it is `null`, otherwise its text
      fields (absent keys read as `None` through `.get`). */
  type Body = Option<map<string, string>>

  /** `request.get_json()` yielding `null` makes the first `.get` raise;
      the route's `except` turns that into a 500 carrying the error text. */
  const NullBodyError := "'NoneType' object has no attribute 'get'"

  /** `not value` for an optional text field. */
  predicate Missing(fields: map<string, string>, key: string)
  {
    key !in fields || fields[key] == ""
  }

  datatype CreateArgs = CreateArgs(name: string, description: string)

  /** `POST /api/models`: the name is required, the description defaults
      to the empty text. */
  function CreateModel(body: Body): (r: Check<CreateArgs>)
    ensures body.None? ==> r == Reject(500, NullBodyError)
    ensures body.Some? ==> (r == Reject(400, "Model name is required") <==> Missing(body.value, "name"))
    ensures r.Forward? <==> body.Some? && !Missing(body.value, "name")
    ensures r.Forward? ==> r.args.name == body.value["name"] && r.args.name != ""
    ensures r.Forward? ==> r.args.description == if "description" in body.value then body.value["description"] else ""
  {
    match body
    case None => Reject(500, NullBodyError)
    case Some(data) =>
      if Missing(data, "name") then Reject(400, "Model name is required")
      else Forward(CreateArgs(data["name"], if "description" in data then data["description"] else ""))
  }

  datatype UploadArgs = UploadArgs(modelName: string, files: seq<string>)

  /** `f.filename and allowed_file(f.filename)`. */
  predicate ValidUpload(filename: string)
  {
    filename != "" && AllowedFile(filename)
  }

  /** `POST /api/models/upload-model`: the form's `model_name`, then the
      presence of the `files[]` part (given by its file names), then at
      least one acceptable name; the acceptable ones are passed on in order. */
  function UploadFiles(form: map<string, string>, files: Option<seq<string>>): (r: Check<UploadArgs>)
    ensures Missing(form, "model_name") ==> r == Reject(400, "Missing model_name")
    ensures !Missing(form, "model_name") && files.None? ==> r == Reject(400, "No files provided")
    ensures !Missing(form, "model_name") && files.Some? ==>
      (r == Reject(400, "No valid files provided") <==> forall i :: 0 <= i < |files.value| ==> !ValidUpload(files.value[i]))
    ensures r.Forward? ==>
      && r.args.modelName == form["model_name"]
      && r.args.files == Filter(files.value, ValidUpload)
      && |r.args.files| > 0
      && (forall i :: 0 <= i < |r.args.files| ==> ValidUpload(r.args.files[i]))
      && Subseq(r.args.files, files.value)
  {
    if Missing(form, "model_name") then Reject(400, "Missing model_name")
    else if files.None? then Reject(400, "No files provided")
    else
      var valid := Filter(files.value, ValidUpload);
      if |valid| == 0 then
        assert forall i :: 0 <= i < |files.value| ==> !ValidUpload(files.value[i]) by {
          forall i | 0 <= i < |files.value| ensures !ValidUpload(files.value[i]) {
            assert files.value[i] in files.value;
          }
        }
        Reject(400, "No valid files provided")
      else
        assert forall i :: 0 <= i < |valid| ==> ValidUpload(valid[i]) by {
          forall i | 0 <= i < |valid| ensures ValidUpload(valid[i]) {
            assert valid[i] in valid;
          }
        }
        Forward(UploadArgs(form["model_name"], valid))
  }

  datatype FilesArgs = FilesArgs(modelId: string, files: seq<string>)

  /** `POST /api/models/<id>/files`: only the presence and non-emptiness of
      the `files[]` part are checked; every file is passed on, whatever its
      name. */
  function UpdateModelFiles(modelId: string, files: Option<seq<string>>): (r: Check<FilesArgs>)
    ensures files.None? ==> r == Reject(400, "No files provided")
    ensures files.Some? && |files.value| == 0 ==> r == Reject(400, "No valid files provided")
    ensures r.Forward? <==> files.Some? && |files.value| > 0
    ensures r.Forward? ==> r.args == FilesArgs(modelId, files.value)
  {
    match files
    case None => Reject(400, "No files provided")
    case Some(fs) => if |fs| == 0 then Reject(400, "No valid files provided") else Forward(FilesArgs(modelId, fs))
  }

  /** The file-update route accepts names the upload route refuses. */
  lemma UpdateFilesSkipsExtensionCheck()
    ensures UploadFiles(map["model_name" := "m"], Some(["notes.exe"])).Reject?
    ensures UpdateModelFiles("id", Some(["notes.exe"])).Forward?
  {
    LastDotIs("notes.exe", 5);
    assert "notes.exe"[6..] == "exe";
    assert Lower("exe") == "exe";
    assert !ValidUpload(["notes.exe"][0]);
  }

  datatype AskArgs = AskArgs(modelName: string, question: string)

  /** `POST /api/ask`: both the question and the model name must be
      present and non-empty. */
  function AskQuestion(body: Body): (r: Check<AskArgs>)
    ensures body.None? ==> r == Reject(500, NullBodyError)
    ensures body.Some? ==>
      (r == Reject(400, "Question and model_name are required") <==> Missing(body.value, "question") || Missing(body.value, "model_name"))
    ensures r.Forward? <==> body.Some? && !Missing(body.value, "question") && !Missing(body.value, "model_name")
    ensures r.Forward? ==> r.args == AskArgs(body.value["model_name"], body.value["question"])
  {
    match body
    case None => Reject(500, NullBodyError)
    case Some(data) =>
      if Missing(data, "question") || Missing(data, "model_name") then Reject(400, "Question and model_name are required")
      else Forward(AskArgs(data["model_name"], data["question"]))
  }
}

=== FILE: socket.dfy ===
/** The push channel (`websocket.service.ts`) as a three-state machine over
    an abstract socket: none, open or closed. Each socket created gets the
    next generation number, so "a fresh socket" is observable. A close of the
    connection only emits on `reconnection$`; the retry pipeline the service
    builds is discarded, so nothing ever reconnects on its own. */
module Socket {
  import opened Base

  datatype Conn = NoSocket | Open(gen: nat) | Closed(gen: nat)

  /** `socket$`, the count of sockets ever created, the messages forwarded
      (tagged with the socket that carried them) and the `reconnection$`
      emissions. */
  datatype Service = Service(conn: Conn, created: nat, sent: seq<(nat, string)>, reconnectSignals: nat)

  const Initial := Service(NoSocket, 0, [], 0)

  /** Every generation in use was created before. */
  ghost predicate Valid(s: Service)
  {
    && (!s.conn.NoSocket? ==> s.conn.gen < s.created)
    && forall i :: 0 <= i < |s.sent| ==> s.sent[i].0 < s.created
  }

  /** `connect()`: a new socket only when there is none or the current one is
      closed; otherwise the existing socket's stream. Returns the generation
      of the socket whose stream is handed out. */
  function Connect(s: Service): (r: (Service, nat))
    ensures s.conn.Open? ==> r == (s, s.conn.gen)
    ensures !s.conn.Open? ==> r.0.conn == Open(s.created) && r.1 == s.created && r.0.created == s.created + 1
    ensures r.0.sent == s.sent && r.0.reconnectSignals == s.reconnectSignals
  {
    match s.conn
    case Open(g) => (s, g)
    case _ => (s.(conn := Open(s.created), created := s.created + 1), s.created)
  }

  /** `sendMessage(m)`: forwarded only on an open socket, silently dropped
      otherwise. */
  function SendMessage(s: Service, message: string): (r: Service)
    ensures s.conn.Open? ==> r.sent == s.sent + [(s.conn.gen, message)]
    ensures !s.conn.Open? ==> r == s
    ensures r.conn == s.conn && r.created == s.created
  {
    if s.conn.Open? then s.(sent := s.sent + [(s.conn.gen, message)]) else s
  }

  /** `disconnect()`: completes and forgets the socket; no-op without one. */
  function Disconnect(s: Service): (r: Service)
    ensures r.conn == NoSocket
    ensures r.created == s.created && r.sent == s.sent && r.reconnectSignals == s.reconnectSignals
  {
    if !s.conn.NoSocket? then s.(conn := NoSocket) else s
  }

  /** The connection closes (peer or network): the close observer emits on
      `reconnection$`, and that is all. */
  function PeerClose(s: Service): (r: Service)
    ensures s.conn.Open? ==> r.conn == Closed(s.conn.gen) && r.reconnectSignals == s.reconnectSignals + 1
    ensures !s.conn.Open? ==> r == s
    ensures r.created == s.created && r.sent == s.sent
  {
    match s.conn
    case Open(g) => s.(conn := Closed(g), reconnectSignals := s.reconnectSignals + 1)
    case _ => s
  }

  datatype Event = ConnectEv | Send(message: string) | DisconnectEv | Close

  function Step(s: Service, e: Event): Service
  {
    match e
    case ConnectEv => Connect(s).0
    case Send(m) => SendMessage(s, m)
    case DisconnectEv => Disconnect(s)
    case Close => PeerClose(s)
  }

  function Run(s: Service, events: seq<Event>): Service
    decreases |events|
  {
    if |events| == 0 then s else Run(Step(s, events[0]), events[1..])
  }

  lemma StepKeepsValid(s: Service, e: Event)
    requires Valid(s)
    ensures Valid(Step(s, e))
  {
  }

  /** `disconnect` is idempotent. */
  lemma DisconnectIdempotent(s: Service)
    ensures Disconnect(Disconnect(s)) == Disconnect(s)
  {
  }

  /** `connect` after `disconnect` always opens a socket that never existed
      before: its generation differs from every earlier one. */
  lemma ConnectAfterDisconnectIsFresh(s: Service)
    requires Valid(s)
    ensures var (r, g) := Connect(Disconnect(s));
      && r.conn == Open(g)
      && g == s.created
      && (!s.conn.NoSocket? ==> g != s.conn.gen)
      && forall i :: 0 <= i < |s.sent| ==> s.sent[i].0 != g
  {
  }

  /** Nothing reconnects: without an explicit `connect`, a service that has no
      open socket never gets one, never creates a socket and never forwards a
      message, whatever closes, sends and disconnects happen. */
  lemma {:induction false} NoReconnectWithoutConnect(s: Service, events: seq<Event>)
    requires !s.conn.Open?
    requires forall i :: 0 <= i < |events| ==> !events[i].ConnectEv?
    ensures !Run(s, events).conn.Open?
    ensures Run(s, events).created == s.created
    ensures Run(s, events).sent == s.sent
    decreases |events|
  {
    if |events| > 0 {
      NoReconnectWithoutConnect(Step(s, events[0]), events[1..]);
    }
  }
}

=== FILE: store.dfy ===
/** The model and document store of the back end (`database.py`), over an
    abstract key-value collection in place of ChromaDB. A model is a map of
    named fields; in storage its `files` field holds the JSON text of the
    file list, and every read decodes it again. Identifiers, timestamps and
    the file system are supplied by the caller. */
module ModelStore {
  import opened Base
  import opened Json

  /** A model as the store hands it out: field name to value. */
  type Record = map<string, Value>

  /** The models collection: ids in insertion order (the order a full `get`
      lists them) and the stored metadata of each. */
  datatype Store = Store(ids: seq<string>, rows: map<string, Record>)

  const Empty := Store([], map[])

  ghost predicate Valid(st: Store)
  {
    && Distinct(st.ids)
    && (forall id :: id in st.rows <==> id in st.ids)
  }

  /** The metadata written for a record: the same fields, with `files`
      replaced by its JSON text. */
  function Encode(r: Record): (m: Record)
    requires "files" in r
    ensures m.Keys == r.Keys
    ensures forall k :: k in r && k != "files" ==> m[k] == r[k]
    ensures m["files"].Str? && Loads(m["files"].text) == Some(r["files"])
  {
    LoadsDumps(r["files"]);
    r["files" := Str(Dumps(r["files"]))]
  }

  /** Turning stored metadata back into a record: `json.loads` of the
      `files` text, which raises when the field is missing or unreadable. */
  function Decode(m: Record): (r: Outcome<Record>)
    ensures r.Returned? ==> "files" in m && r.value.Keys == m.Keys && "files" in r.value
    ensures r.Returned? ==> forall k :: k in m && k != "files" ==> r.value[k] == m[k]
  {
    if "files" !in m then Raised("'files'")
    else match m["files"]
      case FileList(_) => Raised("the JSON object must be str, bytes or bytearray, not list")
      case Str(t) =>
        match Loads(t)
        case None => Raised("Expecting value")
        case Some(v) => Returned(m["files" := v])
  }

  /** What is written is what is read back. */
  lemma DecodeEncode(r: Record)
    requires "files" in r
    ensures Decode(Encode(r)) == Returned(r)
  {
    var m := Encode(r);
    assert m["files" := r["files"]] == r;
  }

  /** `create_model(name, description)` with the fresh id and the creation
      time supplied: a Pending model with no files. */
  function CreateModel(st: Store, id: string, name: string, description: string, created: string): (r: (Store, Record))
    requires Valid(st) && id !in st.rows
    ensures Valid(r.0)
    ensures r.0.ids == st.ids + [id]
    ensures forall k :: k in st.rows ==> k in r.0.rows && r.0.rows[k] == st.rows[k]
    ensures r.1.Keys == {"id", "name", "description", "status", "dateCreated", "files"}
    ensures r.1["id"] == Str(id) && r.1["name"] == Str(name) && r.1["description"] == Str(description)
    ensures r.1["status"] == Str("Pending") && r.1["files"] == FileList([])
  {
    var model := map["id" := Str(id), "name" := Str(name), "description" := Str(description),
                     "status" := Str("Pending"), "dateCreated" := Str(created), "files" := FileList([])];
    (Store(st.ids + [id], st.rows[id := Encode(model)]), model)
  }

  /** Every stored model decoded, in listing order; the first unreadable one
      raises out of the whole listing. */
  function ReadAll(st: Store, ids: seq<string>): (r: Outcome<seq<Record>>)
    requires forall i :: 0 <= i < |ids| ==> ids[i] in st.rows
    ensures r.Returned? ==> |r.value| == |ids|
    ensures r.Returned? ==> forall i :: 0 <= i < |ids| ==> Decode(st.rows[ids[i]]) == Returned(r.value[i])
    decreases |ids|
  {
    if |ids| == 0 then Returned([])
    else match Decode(st.rows[ids[0]])
      case Raised(e) => Raised(e)
      case Returned(m) =>
        match ReadAll(st, ids[1..])
        case Raised(e) => Raised(e)
        case Returned(ms) => Returned([m] + ms)
  }

  /** A Python slice bound: negative counts from the end, then clamped. */
  function SliceBound(i: int, n: nat): (r: nat)
    ensures r <= n
    ensures 0 <= i ==> r == if i < n then i else n
  {
    if i < 0 then (if i + n < 0 then 0 else i + n) else if i < n then i else n
  }

  /** `s[start:stop]`. */
  function PySlice<T>(s: seq<T>, start: int, stop: int): (r: seq<T>)
    ensures |r| <= |s|
  {
    var a := SliceBound(start, |s|);
    var b := SliceBound(stop, |s|);
    if a < b then s[a..b] else []
  }

  /** For a non-negative start and length, a slice is the run of elements
      from the start, cut at the end of the sequence. */
  lemma SliceFrom<T>(s: seq<T>, skip: int, limit: int)
    requires 0 <= skip && 0 <= limit
    ensures var r := PySlice(s, skip, skip + limit);
      && |r| <= limit
      && (skip >= |s| ==> r == [])
      && (skip + limit <= |s| ==> |r| == limit)
      && (forall i :: 0 <= i < |r| ==> skip + i < |s| && r[i] == s[skip + i])
      && r == s[Min(skip, |s|)..Min(skip + limit, |s|)]
  {
  }

  function Min(a: int, b: int): int
  {
    if a < b then a else b
  }

  /** The page cut from the decoded listing, stated over the stored ids. */
  lemma PageOf(st: Store, all: seq<Record>, skip: int, limit: int)
    requires Valid(st) && ReadAll(st, st.ids) == Returned(all)
    requires 0 <= skip && 0 <= limit
    ensures var page := PySlice(all, skip, skip + limit);
      && |page| <= limit
      && (skip >= |st.ids| ==> page == [])
      && (skip + limit <= |st.ids| ==> |page| == limit)
      && (forall i :: 0 <= i < |page| ==> skip + i < |st.ids| && Decode(st.rows[st.ids[skip + i]]) == Returned(page[i]))
      && page == all[Min(skip, |st.ids|)..Min(skip + limit, |st.ids|)]
  {
    SliceFrom(all, skip, limit);
  }

  /** `get_models(skip, limit)`: the page `all[skip:skip + limit]` and the
      count of all models, taken before slicing. */
  function GetModels(st: Store, skip: int, limit: int): (r: Outcome<(seq<Record>, nat)>)
    requires Valid(st)
    ensures r.Raised? <==> ReadAll(st, st.ids).Raised?
    ensures r.Returned? ==> r.value.1 == |st.ids|
    ensures r.Returned? && 0 <= skip && 0 <= limit ==>
      && |r.value.0| <= limit
      && (skip >= |st.ids| ==> r.value.0 == [])
      && (skip + limit <= |st.ids| ==> |r.value.0| == limit)
      && (forall i :: 0 <= i < |r.value.0| ==> skip + i < |st.ids| && Decode(st.rows[st.ids[skip + i]]) == Returned(r.value.0[i]))
      && r.value.0 == ReadAll(st, st.ids).value[Min(skip, |st.ids|)..Min(skip + limit, |st.ids|)]
  {
    match ReadAll(st, st.ids)
    case Raised(e) => Raised(e)
    case Returned(all) =>
      if 0 <= skip && 0 <= limit then
        PageOf(st, all, skip, limit);
        Returned((PySlice(all, skip, skip + limit), |all|))
      else Returned((PySlice(all, skip, skip + limit), |all|))
  }

  /** `get_model_by_id(id)`: `None` for an unknown id, and also when the
      stored record cannot be decoded (the `except` swallows the error). */
  function GetModelById(st: Store, id: string): (r: Option<Record>)
    ensures id !in st.rows ==> r.None?
    ensures r.Some? ==> id in st.rows && Decode(st.rows[id]) == Returned(r.value)
    ensures id in st.rows && Decode(st.rows[id]).Returned? ==> r.Some?
  {
    if id !in st.rows then None
    else match Decode(st.rows[id])
      case Raised(_) => None
      case Returned(m) => Some(m)
  }

  /** `update_model(id, updates)`: `{**model, **updates}` is stored and
      returned; `None` when the model cannot be read. */
  function UpdateModel(st: Store, id: string, updates: Record): (r: (Store, Option<Record>))
    ensures GetModelById(st, id).None? ==> r == (st, None)
    ensures GetModelById(st, id).Some? ==>
      var model := GetModelById(st, id).value;
      && r.1.Some?
      && r.1.value.Keys == model.Keys + updates.Keys
      && (forall k :: k in updates ==> r.1.value[k] == updates[k])
      && (forall k :: k in model && k !in updates ==> r.1.value[k] == model[k])
    ensures r.0.ids == st.ids && r.0.rows.Keys == st.rows.Keys
    ensures forall k :: k in st.rows && k != id ==> r.0.rows[k] == st.rows[k]
  {
    match GetModelById(st, id)
    case None => (st, None)
    case Some(model) =>
      var updated := model + updates;
      (st.(rows := st.rows[id := Encode(updated)]), Some(updated))
  }

  /** What `update_model` returns is what a later `get_model_by_id` reads. */
  lemma UpdateThenGet(st: Store, id: string, updates: Record)
    ensures UpdateModel(st, id, updates).1.Some? ==>
      GetModelById(UpdateModel(st, id, updates).0, id) == UpdateModel(st, id, updates).1
  {
    var (st2, r) := UpdateModel(st, id, updates);
    if r.Some? {
      DecodeEncode(r.value);
    }
  }

  /** A freshly created model reads back as it was returned. */
  lemma CreateThenGet(st: Store, id: string, name: string, description: string, created: string)
    requires Valid(st) && id !in st.rows
    ensures GetModelById(CreateModel(st, id, name, description, created).0, id) == Some(CreateModel(st, id, name, description, created).1)
  {
    DecodeEncode(CreateModel(st, id, name, description, created).1);
  }

  /** `os.path.join(dir, name)` for a relative `dir` without a trailing
      slash: an absolute `name` replaces the directory. */
  function PathJoin(dir: string, name: string): (p: string)
    ensures |name| > 0 && name[0] == '/' ==> p == name
    ensures (|name| == 0 || name[0] != '/') ==> p == dir + "/" + name
  {
    if |name| > 0 && name[0] == '/' then name else dir + "/" + name
  }

  /** One file received for upload, with the uuid drawn for it. */
  datatype Upload = Upload(fileId: string, filename: string)

  /** The record `add_model_files` keeps for an upload. */
  function FileFor(u: Upload): (f: FileRecord)
    ensures f.id == u.fileId && f.name == u.filename
    ensures |u.fileId| > 0 && u.fileId[0] != '/' ==> f.path == "uploads/" + u.fileId + "_" + u.filename
  {
    FileRecord(u.fileId, u.filename, PathJoin("uploads", u.fileId + "_" + u.filename))
  }

  function FilesFor(us: seq<Upload>): (fs: seq<FileRecord>)
    ensures |fs| == |us|
    ensures forall i :: 0 <= i < |us| ==> fs[i] == FileFor(us[i])
    decreases |us|
  {
    if |us| == 0 then [] else [FileFor(us[0])] + FilesFor(us[1..])
  }

  /** `add_model_files(id, files)`: `None` for a model that cannot be read;
      otherwise the new records are appended after the existing ones and the
      result of the update is returned. A `files` field that is not a list
      has no `extend`, and the call raises. */
  function AddModelFiles(st: Store, id: string, uploads: seq<Upload>): (r: (Store, Outcome<Option<Record>>))
    ensures GetModelById(st, id).None? ==> r == (st, Returned(None))
    ensures GetModelById(st, id).Some? && !GetModelById(st, id).value["files"].FileList? ==> r.0 == st && r.1.Raised?
    ensures GetModelById(st, id).Some? && GetModelById(st, id).value["files"].FileList? ==>
      var before := GetModelById(st, id).value["files"].files;
      r == (UpdateModel(st, id, map["files" := FileList(before + FilesFor(uploads))]).0,
            Returned(UpdateModel(st, id, map["files" := FileList(before + FilesFor(uploads))]).1))
  {
    match GetModelById(st, id)
    case None => (st, Returned(None))
    case Some(model) =>
      match model["files"]
      case Str(_) => (st, Raised("'str' object has no attribute 'extend'"))
      case FileList(existing) =>
        var u := UpdateModel(st, id, map["files" := FileList(existing + FilesFor(uploads))]);
        (u.0, Returned(u.1))
  }

  /** After a successful `add_model_files`, the model reads back with the
      old files followed by one record per upload, in upload order. */
  lemma AddFilesAppends(st: Store, id: string, uploads: seq<Upload>)
    requires GetModelById(st, id).Some? && GetModelById(st, id).value["files"].FileList?
    ensures var r := AddModelFiles(st, id, uploads);
      && r.1.Returned? && r.1.value.Some?
      && GetModelById(r.0, id) == r.1.value
      && r.1.value.value["files"] == FileList(GetModelById(st, id).value["files"].files + FilesFor(uploads))
  {
    var before := GetModelById(st, id).value["files"].files;
    UpdateThenGet(st, id, map["files" := FileList(before + FilesFor(uploads))]);
  }

  predicate HasFile(fs: seq<FileRecord>, fileId: string)
  {
    exists i :: 0 <= i < |fs| && fs[i].id == fileId
  }

  function OtherThan(fileId: string): FileRecord -> bool
  {
    (f: FileRecord) => f.id != fileId
  }

  /** `delete_model_file(id, file_id)`: `False` with nothing changed when
      the model cannot be read or holds no such file; otherwise every file
      with that id is dropped and `True` returned. Scanning a `files` text
      instead of a list finds nothing when the text is empty and raises
      otherwise. */
  function DeleteModelFile(st: Store, id: string, fileId: string): (r: (Store, Outcome<bool>))
    ensures GetModelById(st, id).None? ==> r == (st, Returned(false))
    ensures GetModelById(st, id).Some? && GetModelById(st, id).value["files"].FileList? ==>
      var fs := GetModelById(st, id).value["files"].files;
      && (HasFile(fs, fileId) ==> r == (UpdateModel(st, id, map["files" := FileList(Filter(fs, OtherThan(fileId)))]).0, Returned(true)))
      && (!HasFile(fs, fileId) ==> r == (st, Returned(false)))
    ensures GetModelById(st, id).Some? && GetModelById(st, id).value["files"].Str? ==>
      r.0 == st && (r.1 == Returned(false) <==> GetModelById(st, id).value["files"].text == "") && (r.1.Raised? <==> GetModelById(st, id).value["files"].text != "")
  {
    match GetModelById(st, id)
    case None => (st, Returned(false))
    case Some(model) =>
      match model["files"]
      case Str(t) => if t == "" then (st, Returned(false)) else (st, Raised("string indices must be integers"))
      case FileList(fs) =>
        if HasFile(fs, fileId) then
          (UpdateModel(st, id, map["files" := FileList(Filter(fs, OtherThan(fileId)))]).0, Returned(true))
        else (st, Returned(false))
  }

  /** After a successful file delete the model reads back without any file
      carrying that id, with every other file kept in order. */
  lemma DeleteFileRemovesExactly(st: Store, id: string, fileId: string, fs: seq<FileRecord>, after: Store)
    requires GetModelById(st, id).Some? && GetModelById(st, id).value["files"] == FileList(fs)
    requires DeleteModelFile(st, id, fileId) == (after, Returned(true))
    ensures GetModelById(after, id).Some?
    ensures GetModelById(after, id).value["files"] == FileList(Filter(fs, OtherThan(fileId)))
    ensures !HasFile(Filter(fs, OtherThan(fileId)), fileId)
    ensures |Filter(fs, OtherThan(fileId))| < |fs|
  {
    var updates := map["files" := FileList(Filter(fs, OtherThan(fileId)))];
    assert HasFile(fs, fileId);
    assert after == UpdateModel(st, id, updates).0;
    UpdateThenGet(st, id, updates);
    FilterDropsFile(fs, fileId);
  }

  /** Dropping the files with an id that occurs leaves none with it and
      shortens the list. */
  lemma FilterDropsFile(fs: seq<FileRecord>, fileId: string)
    requires HasFile(fs, fileId)
    ensures !HasFile(Filter(fs, OtherThan(fileId)), fileId)
    ensures |Filter(fs, OtherThan(fileId))| < |fs|
  {
    var kept := Filter(fs, OtherThan(fileId));
    var i :| 0 <= i < |fs| && fs[i].id == fileId;
    assert !OtherThan(fileId)(fs[i]);
    FilterKeepsAllIff(fs, OtherThan(fileId));
    forall j | 0 <= j < |kept|
      ensures kept[j].id != fileId
    {
      assert kept[j] in kept;
      assert OtherThan(fileId)(kept[j]);
    }
  }

  function NotId(id: string): string -> bool
  {
    (k: string) => k != id
  }

  /** The `files` field of a read model is a non-empty text: looping over
      it yields characters, and indexing one with `'path'` raises. */
  predicate FilesAreText(m: Record)
  {
    "files" in m && m["files"].Str? && m["files"].text != ""
  }

  /** `delete_model(id)`: removes a readable model and answers `True`;
      `False` and nothing changed when the model cannot be read, or when the
      loop over its files raises on a non-empty `files` text (the `except`
      answers `False` before the delete). The files on disk are not part of
      this model. */
  function DeleteModel(st: Store, id: string): (r: (Store, bool))
    requires Valid(st)
    ensures Valid(r.0)
    ensures r.1 <==> GetModelById(st, id).Some? && !FilesAreText(GetModelById(st, id).value)
    ensures r.1 ==> id !in r.0.rows && r.0.rows.Keys == st.rows.Keys - {id}
    ensures r.1 ==> r.0.ids == Filter(st.ids, NotId(id))
    ensures !r.1 ==> r.0 == st
    ensures forall k :: k in r.0.rows ==> k in st.rows && r.0.rows[k] == st.rows[k]
  {
    match GetModelById(st, id)
    case None => (st, false)
    case Some(model) =>
      if FilesAreText(model) then (st, false)
      else
        var ids := Filter(st.ids, NotId(id));
        FilterKeepsDistinct(st.ids, NotId(id));
        (Store(ids, st.rows - {id}), true)
  }

  /** After a successful delete the model is gone from the store and from
      the listing, and every other model reads as before. */
  lemma DeleteThenGet(st: Store, id: string, other: string)
    requires Valid(st) && DeleteModel(st, id).1
    ensures GetModelById(DeleteModel(st, id).0, id).None?
    ensures id !in DeleteModel(st, id).0.ids
    ensures other != id ==> GetModelById(DeleteModel(st, id).0, other) == GetModelById(st, other)
  {
    assert !NotId(id)(id);
  }

  /** The three document collections, keyed by category. */
  const Categories: set<string> := {"SALLE DE BAINS", "REVETEMENT", "MENUISERIE EXTERIEURE"}

  datatype Document = Document(id: string, text: string, metadata: map<string, string>)

  /** Document collections: category to documents in insertion order. */
  type Documents = map<string, seq<Document>>

  /** `add_document(text, embeddings, category, metadata)`: an unknown
      category raises, a missing `filename` raises, and otherwise the
      document is stored in its category under `metadata["filename"]`,
      which is returned. The embedding vector is not part of this model. */
  function AddDocument(docs: Documents, text: string, category: string, metadata: map<string, string>): (r: Outcome<(Documents, string)>)
    requires docs.Keys == Categories
    ensures category !in Categories ==> r == Raised("Catégorie inconnue: " + category)
    ensures category in Categories && "filename" !in metadata ==> r.Raised?
    ensures r.Returned? <==> category in Categories && "filename" in metadata
    ensures r.Returned? ==>
      && r.value.1 == metadata["filename"]
      && r.value.0.Keys == Categories
      && r.value.0[category] == docs[category] + [Document(metadata["filename"], text, metadata)]
      && forall c :: c in Categories && c != category ==> r.value.0[c] == docs[c]
  {
    if category !in Categories then Raised("Catégorie inconnue: " + category)
    else if "filename" !in metadata then Raised("'filename'")
    else
      var id := metadata["filename"];
      Returned((docs[category := docs[category] + [Document(id, text, metadata)]], id))
  }

  /** The id `add_document` answers finds the stored document, with its
      text and metadata, in the collection of its category. */
  lemma AddDocumentThenFind(docs: Documents, text: string, category: string, metadata: map<string, string>)
    requires docs.Keys == Categories
    requires AddDocument(docs, text, category, metadata).Returned?
    ensures var (after, id) := AddDocument(docs, text, category, metadata).value;
      && category in after
      && exists i :: 0 <= i < |after[category]| && after[category][i] == Document(id, text, metadata)
  {
    var (after, id) := AddDocument(docs, text, category, metadata).value;
    assert after[category][|docs[category]|] == Document(id, text, metadata);
  }
}

=== FILE: text.dfy ===
/** String vocabulary used by both halves of the system: ASCII case folding
    (`toLowerCase()` / `str.lower()`), substring search (`includes`), Python's
    whitespace `str.split()` and `' '.join`, and decimal rendering of counts
    in user-visible messages. */
module Text {

  /** Case mapping of one character; only the ASCII letters change. */
  function LowerChar(c: char): char
  {
    if 'A' <= c <= 'Z' then (c as int + 32) as char else c
  }

  /** `s.toLowerCase()` / `s.lower()` restricted to ASCII letters. */
  function Lower(s: string): (r: string)
    ensures |r| == |s|
    ensures forall i :: 0 <= i < |s| ==> r[i] == LowerChar(s[i])
  {
    seq(|s|, i requires 0 <= i < |s| => LowerChar(s[i]))
  }

  /** `sub` occurs in `s` starting at position `i`. */
  predicate OccursAt(s: string, sub: string, i: int)
  {
    0 <= i <= |s| - |sub| && s[i..i + |sub|] == sub
  }

  /** `s.includes(sub)`: `sub` occurs in `s` at some position. */
  predicate Contains(s: string, sub: string)
  {
    exists i :: 0 <= i <= |s| && OccursAt(s, sub, i)
  }

  /** The ASCII characters Python's `str.split()` treats as whitespace. */
  predicate IsSpace(c: char)
  {
    c == ' ' || '\t' <= c <= '\r' || '\U{1C}' <= c <= '\U{1F}'
  }

  /** A word of `str.split()`: non-empty and free of whitespace. */
  predicate IsWord(w: string)
  {
    |w| > 0 && forall i :: 0 <= i < |w| ==> !IsSpace(w[i])
  }

  /** Length of the longest whitespace-free prefix of `s`. */
  function WordLength(s: string): (n: nat)
    ensures n <= |s|
    ensures forall i :: 0 <= i < n ==> !IsSpace(s[i])
    ensures n < |s| ==> IsSpace(s[n])
    decreases |s|
  {
    if |s| == 0 || IsSpace(s[0]) then 0 else 1 + WordLength(s[1..])
  }

  /** `s.split()` with no separator: the maximal runs of non-whitespace. */
  function Words(s: string): (ws: seq<string>)
    ensures forall i :: 0 <= i < |ws| ==> IsWord(ws[i])
    decreases |s|
  {
    if |s| == 0 then []
    else if IsSpace(s[0]) then Words(s[1..])
    else
      var n := WordLength(s);
      [s[..n]] + Words(s[n..])
  }

  /** `' '.join(ws)`. */
  function Join(ws: seq<string>): string
    decreases |ws|
  {
    if |ws| == 0 then ""
    else if |ws| == 1 then ws[0]
    else ws[0] + " " + Join(ws[1..])
  }

  /** A whitespace-only string has no words. */
  lemma {:induction false} BlankHasNoWords(s: string)
    requires forall i :: 0 <= i < |s| ==> IsSpace(s[i])
    ensures Words(s) == []
    decreases |s|
  {
    if |s| > 0 {
      BlankHasNoWords(s[1..]);
    }
  }

  /** A word followed by nothing or by whitespace is read back whole. */
  lemma {:induction false} WordLengthOfWord(w: string, rest: string)
    requires IsWord(w)
    requires |rest| == 0 || IsSpace(rest[0])
    ensures WordLength(w + rest) == |w|
    decreases |w|
  {
    if |w| > 1 {
      assert (w + rest)[1..] == w[1..] + rest;
      WordLengthOfWord(w[1..], rest);
    } else {
      assert (w + rest)[1..] == rest;
    }
  }

  /** Splitting a word followed by a separator yields that word first. */
  lemma WordsOfWordThen(w: string, rest: string)
    requires IsWord(w)
    requires |rest| == 0 || IsSpace(rest[0])
    ensures Words(w + rest) == [w] + Words(rest)
  {
    WordLengthOfWord(w, rest);
    assert (w + rest)[..|w|] == w;
    assert (w + rest)[|w|..] == rest;
  }

  /** Joining words with single spaces and splitting again gives the words
      back: the round trip `' '.join(ws).split() == ws`. */
  lemma {:induction false} WordsOfJoin(ws: seq<string>)
    requires forall i :: 0 <= i < |ws| ==> IsWord(ws[i])
    ensures Words(Join(ws)) == ws
    decreases |ws|
  {
    if |ws| == 1 {
      WordsOfWordThen(ws[0], "");
      assert ws[0] + "" == ws[0];
    } else if |ws| > 1 {
      var tail := Join(ws[1..]);
      WordsOfJoin(ws[1..]);
      assert Join(ws) == ws[0] + (" " + tail);
      WordsOfWordThen(ws[0], " " + tail);
      assert (" " + tail)[1..] == tail;
      assert ws == [ws[0]] + ws[1..];
    }
  }

  /** The decimal digit for `d`. */
  function DigitChar(d: nat): char
    requires d < 10
  {
    ('0' as int + d) as char
  }

  /** Decimal rendering of a count, as a template literal prints it. */
  function NatToString(n: nat): (r: string)
    ensures |r| > 0
    ensures forall i :: 0 <= i < |r| ==> '0' <= r[i] <= '9'
    decreases n
  {
    if n < 10 then [DigitChar(n)] else NatToString(n / 10) + [DigitChar(n % 10)]
  }
}

=== FILE: toasts.dfy ===
/** The notification queue (`toast.service.ts`): a list of toasts and a
    monotonic id counter. Timers are not modelled as such: a toast's expiry
    is the explicit event `Expire(id)`, which the service implements as
    `remove(id)`. */
module Toasts {
  import opened Base

  datatype ToastType = SuccessToast | ErrorToast | InfoToast | WarningToast

  datatype Toast = Toast(id: nat, message: string, kind: ToastType, duration: int)

  /** The service's private state: `toasts` and `nextId`. */
  datatype Queue = Queue(toasts: seq<Toast>, nextId: nat)

  /** Duration used when the caller passes none, or a falsy one. */
  const DefaultDuration := 3000

  /** The state of a freshly constructed service. */
  const Initial := Queue([], 1)

  function IdOf(t: Toast): int { t.id }

  /** The invariant every reachable queue keeps: the counter is positive, the
      list is sorted by strictly increasing id and every id was already issued. */
  ghost predicate Valid(q: Queue)
  {
    && q.nextId >= 1
    && StrictlyIncreasing(q.toasts, IdOf)
    && forall i :: 0 <= i < |q.toasts| ==> q.toasts[i].id < q.nextId
  }

  /** `options.duration || 3000`: `undefined` and `0` are falsy. */
  function EffectiveDuration(duration: Option<int>): int
  {
    match duration
    case Some(d) => if d != 0 then d else DefaultDuration
    case None => DefaultDuration
  }

  /** The private `show`: appends one toast that takes the current `nextId`,
      which then advances. */
  function Show(q: Queue, message: string, kind: ToastType, duration: Option<int>): (r: Queue)
    ensures |r.toasts| == |q.toasts| + 1
    ensures r.toasts[..|q.toasts|] == q.toasts
    ensures r.toasts[|q.toasts|].id == q.nextId && r.nextId == q.nextId + 1
    ensures r.toasts[|q.toasts|].message == message && r.toasts[|q.toasts|].kind == kind
    ensures duration.None? || duration == Some(0) ==> r.toasts[|q.toasts|].duration == DefaultDuration
    ensures duration.Some? && duration.value != 0 ==> r.toasts[|q.toasts|].duration == duration.value
  {
    var t := Toast(q.nextId, message, kind, EffectiveDuration(duration));
    Queue(q.toasts + [t], q.nextId + 1)
  }

  /** `remove(id)`: drops every toast with that id and keeps the rest in order. */
  function Remove(q: Queue, id: nat): (r: Queue)
    ensures r.nextId == q.nextId
    ensures Subseq(r.toasts, q.toasts)
    ensures forall t :: t in r.toasts <==> t in q.toasts && t.id != id
  {
    q.(toasts := Filter(q.toasts, (t: Toast) => t.id != id))
  }

  /** `clearAll()`: empties the list; the counter is not reset. */
  function ClearAll(q: Queue): (r: Queue)
    ensures r.toasts == [] && r.nextId == q.nextId
  {
    q.(toasts := [])
  }

  function Success(q: Queue, message: string, duration: Option<int>): (r: Queue)
    ensures r.toasts == q.toasts + [Toast(q.nextId, message, SuccessToast, EffectiveDuration(duration))]
    ensures r.nextId == q.nextId + 1
  {
    Show(q, message, SuccessToast, duration)
  }

  function Error(q: Queue, message: string, duration: Option<int>): (r: Queue)
    ensures r.toasts == q.toasts + [Toast(q.nextId, message, ErrorToast, EffectiveDuration(duration))]
    ensures r.nextId == q.nextId + 1
  {
    Show(q, message, ErrorToast, duration)
  }

  function Info(q: Queue, message: string, duration: Option<int>): (r: Queue)
    ensures r.toasts == q.toasts + [Toast(q.nextId, message, InfoToast, EffectiveDuration(duration))]
    ensures r.nextId == q.nextId + 1
  {
    Show(q, message, InfoToast, duration)
  }

  function Warning(q: Queue, message: string, duration: Option<int>): (r: Queue)
    ensures r.toasts == q.toasts + [Toast(q.nextId, message, WarningToast, EffectiveDuration(duration))]
    ensures r.nextId == q.nextId + 1
  {
    Show(q, message, WarningToast, duration)
  }

  /** Everything that can happen to the queue. */
  datatype Event =
    | Add(message: string, kind: ToastType, duration: Option<int>)
    | Dismiss(id: nat)
    | Expire(id: nat)
    | Clear

  function Step(q: Queue, e: Event): Queue
  {
    match e
    case Add(m, k, d) => Show(q, m, k, d)
    case Dismiss(id) => Remove(q, id)
    case Expire(id) => Remove(q, id)
    case Clear => ClearAll(q)
  }

  function Run(q: Queue, events: seq<Event>): Queue
    decreases |events|
  {
    if |events| == 0 then q else Run(Step(q, events[0]), events[1..])
  }

  function CountAdds(events: seq<Event>): nat
    decreases |events|
  {
    if |events| == 0 then 0 else (if events[0].Add? then 1 else 0) + CountAdds(events[1..])
  }

  /** A new toast's id is larger than every id in the queue, so it is fresh. */
  lemma ShowKeepsValid(q: Queue, message: string, kind: ToastType, duration: Option<int>)
    requires Valid(q)
    ensures Valid(Show(q, message, kind, duration))
    ensures forall t :: t in q.toasts ==> t.id < Show(q, message, kind, duration).toasts[|q.toasts|].id
  {
    var r := Show(q, message, kind, duration);
    forall i, j | 0 <= i < j < |r.toasts| ensures IdOf(r.toasts[i]) < IdOf(r.toasts[j]) {
      if j < |q.toasts| {
        assert r.toasts[i] == q.toasts[i] && r.toasts[j] == q.toasts[j];
      } else {
        assert r.toasts[i] == q.toasts[i];
      }
    }
  }

  lemma RemoveKeepsValid(q: Queue, id: nat)
    requires Valid(q)
    ensures Valid(Remove(q, id))
  {
    var r := Remove(q, id);
    SubseqKeepsIncreasing(r.toasts, q.toasts, IdOf);
    forall i | 0 <= i < |r.toasts| ensures r.toasts[i].id < r.nextId {
      assert r.toasts[i] in q.toasts;
    }
  }

  /** Removing an id no toast carries leaves the queue unchanged. */
  lemma RemoveUnknownId(q: Queue, id: nat)
    requires forall i :: 0 <= i < |q.toasts| ==> q.toasts[i].id != id
    ensures Remove(q, id) == q
  {
    FilterKeepsAllIff(q.toasts, (t: Toast) => t.id != id);
  }

  /** An expiry after a dismissal of the same toast is a harmless no-op. */
  lemma ExpireAfterDismiss(q: Queue, id: nat)
    ensures Step(Step(q, Dismiss(id)), Expire(id)) == Step(q, Dismiss(id))
  {
    var r := Remove(q, id);
    forall i | 0 <= i < |r.toasts| ensures r.toasts[i].id != id {
      assert r.toasts[i] in r.toasts;
    }
    RemoveUnknownId(r, id);
  }

  /** Over any history the invariant holds and the counter has advanced once
      per added toast: `clearAll` and removals never reset it, so no id is
      ever handed out twice. */
  lemma {:induction false} RunKeepsValid(q: Queue, events: seq<Event>)
    requires Valid(q)
    ensures Valid(Run(q, events))
    ensures Run(q, events).nextId == q.nextId + CountAdds(events)
    decreases |events|
  {
    if |events| > 0 {
      var e := events[0];
      match e {
        case Add(m, k, d) => ShowKeepsValid(q, m, k, d);
        case Dismiss(id) => RemoveKeepsValid(q, id);
        case Expire(id) => RemoveKeepsValid(q, id);
        case Clear =>
      }
      RunKeepsValid(Step(q, e), events[1..]);
    }
  }

  /** From a fresh service, ids start at 1 and the next one equals one more
      than the number of toasts ever shown. */
  lemma InitialRun(events: seq<Event>)
    ensures Valid(Run(Initial, events))
    ensures Run(Initial, events).nextId == 1 + CountAdds(events)
  {
    RunKeepsValid(Initial, events);
  }
}

=== FILE: types.dfy ===
/** The front end's record types (`ai-model.interface.ts`). `dateCreated` and
    `vectorStore` are carried by the source only for display and are left out. */
module Types {
  import opened Base

  /** The training lifecycle of a model. */
  datatype ModelStatus = Pending | Training | Ready | Error

  /** The embedding lifecycle of a model, independent of `ModelStatus`. */
  datatype EmbeddingStatus = EmbeddingPending | Processing | Completed | EmbeddingError

  /** One uploaded document of a model. */
  datatype ModelFile = ModelFile(id: string, name: string, path: string)

  /** `AIModel`; the optional interface fields are `Option`s. */
  datatype AIModel = AIModel(
    id: string,
    name: string,
    description: string,
    status: ModelStatus,
    files: seq<ModelFile>,
    trainingLogs: Option<seq<string>>,
    embeddingStatus: Option<EmbeddingStatus>,
    embeddingProgress: Option<int>)
}
